=== FILE: README.md ===
# Crime-incident REST server: query builders and mutation guard

This project models the core of `rest_server.mjs`, the Express server over a SQLite database of
Saint Paul crime incidents, as pure Dafny functions. It covers four parts of that core:

- **`codeRangeInstant`**: the parser for one `code_range` token (`x-200`, `300-350`, `800-x`).
- **The three GET query builders**: `/codes`, `/neighborhoods` and `/incidents`. Each one turns a
  request's query parameters into a SQL text with `?` placeholders and an ordered list of bound
  values.
- **The existence-gated insert** `PUT /new-incident`.
- **The existence-gated delete** `DELETE /remove-incident`.

The database is an abstract store `map<int, Incident>` keyed by case number. Every statement a
handler hands to the storage is recorded, in order, in a call trace. The one exception is the
lookup the delete handler attempts without a case number: its text is `undefined`, and the model
treats that call as failing before it reaches the storage, so it leaves no trace entry.

Modules:

- `Wrappers`: `Option` and `Result`.
- `JsText`: the JavaScript string semantics the handlers rely on:
  - `String.prototype.split` on one character;
  - `toLowerCase` on ASCII;
  - `parseInt` with no radix, as section 19.2.5 of ECMA-262 defines it: skip white space, an
    optional sign, a `0x` prefix, the longest digit prefix, `NaN` when there is none;
  - the decimal spelling of an integer.
- `Sql`:
  - bound values (`PInt`, `PStr`, `PNaN`, `PUndef`);
  - statements;
  - the count of `?` placeholders, and `InStep`: as many placeholders as bound values;
  - a structured rendering of comparisons, OR-groups and WHERE clauses, which is the reference the
    handlers' string building is proved against.
- `CodeRange`: `codeRangeInstant` and the way the `/codes` handler reads the object it returns.
  That reading includes the misspelt `params: 1` key.
- `Lookups`: the `/codes` and `/neighborhoods` builders.
- `Incidents`: the `/incidents` builder.
- `MutationGuard`: the insert and delete handlers over the store.

Each builder is written the way the handler builds its text: append to a string, push to a list,
count the filters so far. Each is then proved equal to the structured rendering. From that
rendering the model derives:

- placeholder/value agreement;
- the clause order;
- the `WHERE`/`AND`/`OR` connectives.

## Model

| member | source | states |
|---|---|---|
| CodeRange.CodeRangeInstant | rest_server.mjs:60-73 | a token is rejected exactly when it has no `-` and is not `x`/`X`; then the error names the token |
| CodeRange.CodeRangeInstantMeaning | rest_server.mjs:60-73 | the values the `/codes` loop pushes for a token, read through `paramAmt`/`param`/`params`, are exactly the comparison values of the token's meaning, in the order the fragment names them; both reject the same tokens |
| CodeRange.CodeRangeInstantCases | rest_server.mjs:60-73 | for a token `a-b` with no `-` in `a`, and `b'` the part of `b` up to its first `-`: `x-b` gives `code <= ?` bound to `b'` unparsed, `a-x` gives `code >= ?` bound to `a` unparsed, anything else gives `code >= ? AND code <= ?` bound to `parseInt(a)` then `parseInt(b')`; `x` matches either case |
| Lookups.TokenTermsFailure | rest_server.mjs:104-108 | a `code_range` list is rejected exactly when one of its tokens is, and with that token's error |
| Lookups.CodesMatchesReference | rest_server.mjs:92-123 | the string-built `/codes` query equals the OR of the request's alternatives between the fixed select and ` ORDER BY code;`, and fails exactly when that meaning fails |
| Lookups.CodesInStep | rest_server.mjs:92-123 | every `/codes` query binds exactly one value per placeholder, in alternative order |
| Lookups.CodesRejects | rest_server.mjs:95-121 | a `/codes` request is refused exactly when it has no `code`, has `code_range`, and one range token is malformed; the error names such a token |
| Lookups.CodesExactList | rest_server.mjs:95-103 | with `code` the query is `... WHERE code = ?` then ` OR code = ?` once per further item, then ` ORDER BY code;`, binding `parseInt` of each item in order; `code_range` is then ignored |
| Lookups.CodesUnfiltered | rest_server.mjs:92-93 | with neither key the query is the bare select ordered by code, with no bound values |
| Lookups.ExactQueryShape | rest_server.mjs:95-102 | an exact-list lookup has one `column = ?` per comma-separated item, joined by ` OR `, binds the parsed items in order, and has one value per placeholder |
| Lookups.NeighborhoodsShape | rest_server.mjs:145-156 | with `id`: one `neighborhood_number = ?` per item joined by ` OR `, binding the parsed ids, then ` ORDER BY id;`; without: no values; always one value per placeholder |
| Incidents.Limit | rest_server.mjs:229-231 | the limit is 1000 when absent (the default set at line 179); otherwise it is the integer `parseInt` reads from the text, or `NaN` exactly when `parseInt` finds no digit after the white space, the sign and any `0x` prefix |
| Incidents.IncidentsMatchesReference | rest_server.mjs:177-233 | the string-built `/incidents` query equals the WHERE clause of the present filters, in the order start_date, end_date, neighborhood, code, grid, joined by ` AND `, lists parenthesised, then ordering and limit |
| Incidents.IncidentsInStep | rest_server.mjs:177-233 | the `/incidents` query binds one value per placeholder: the filter values in clause order, then the limit |
| Incidents.IncidentsLimitLast | rest_server.mjs:229-233 | the last bound value is the limit (1000 without `limit`), and the text ends with ` ORDER BY date_time DESC LIMIT ?` |
| Incidents.IncidentsUnfiltered | rest_server.mjs:177-233 | a request names none of the five filters exactly when it selects no group, and the query is the bare select with the ordering and only the limit bound exactly when it selects no group |
| Incidents.AnyOfText | rest_server.mjs:193-203 | a list filter renders as `(column = ? OR column = ? ...)`, one comparison per item, binding the items in order |
| JsText.SplitOfJoin | rest_server.mjs:96 | splitting the comma-join of comma-free pieces gives back those pieces |
| JsText.ParseIntOfDecimal | rest_server.mjs:98 | `parseInt` reads back the decimal spelling of any integer, whatever non-digit text follows, except an `x`/`X` after `0`, which opens a hexadecimal number |
| JsText.ParseIntWithoutDigits | rest_server.mjs:98 | text with no decimal digit parses to `NaN` |
| MutationGuard.KeyOf | rest_server.mjs:288 | the case number a bound value selects: an integer selects itself, a string only the integer it spells canonically |
| MutationGuard.Lookup | rest_server.mjs:282-291 | a `case_number = ?` lookup returns at most one row, and a row exactly when the bound value selects a stored key |
| MutationGuard.CompleteMeansAllFields | rest_server.mjs:258-266 | the insert's field check holds exactly when all eight body fields are present |
| MutationGuard.NewRow | rest_server.mjs:268-275 | the bound row keeps the case number as given and binds `date + "T" + time` as `date_time` |
| MutationGuard.NewIncident | rest_server.mjs:253-306 | a missing field is refused exactly when some field is absent, with no storage call; a failed insert leaves the table unchanged; a complete body is first looked up with `parseInt(case_number)` |
| MutationGuard.InsertInStep | rest_server.mjs:256-288 | the insert binds seven values to seven placeholders: `case_number`, `date + "T" + time`, `code`, `incident`, `police_grid`, `neighborhood_number` and `block`, each unchanged and in column order; the existence check binds one |
| MutationGuard.CheckAgreesWithWrite | rest_server.mjs:288 | whenever the storage accepts a case number, `parseInt` of its spelling selects the same key, so the check looks at the row the insert would write |
| MutationGuard.NewIncidentSucceeds | rest_server.mjs:288-299 | the insert succeeds exactly when the body is complete and its case number is a free integer key; the table then gains exactly that row, after one lookup and one insert |
| MutationGuard.NewIncidentDuplicate | rest_server.mjs:288-296 | a complete body is refused as a duplicate exactly when the check finds a row; it is then refused after the lookup alone with the table unchanged, and otherwise the insert is issued after the lookup |
| MutationGuard.NewIncidentMissingColumn | rest_server.mjs:258-266 | a body missing a field reaches no storage call and changes nothing |
| MutationGuard.NewIncidentTwice | rest_server.mjs:288-293 | repeating a successful insert is refused as a duplicate and changes nothing |
| MutationGuard.RemoveIncident | rest_server.mjs:314-348 | without a case number nothing is looked up or changed; every non-success leaves the table unchanged |
| MutationGuard.RemoveIncidentMeaning | rest_server.mjs:321-343 | removal succeeds exactly when the case number selects a stored row; it then removes exactly that key and keeps every other row, after the lookup and then `DELETE FROM Incidents WHERE case_number = ?`, both bound to the case number as given; otherwise it reports not-found, and the lookup is its only storage call |
| MutationGuard.RemoveInStep | rest_server.mjs:317-335 | the lookup and the delete each bind one value to one placeholder |
| MutationGuard.RemoveIncidentTwice | rest_server.mjs:330-343 | removing the same case number again finds nothing |
| MutationGuard.InsertThenRemove | rest_server.mjs:253-348 | a successful insert followed by a removal of the same case number succeeds and restores the table |

## Left out

- **HTTP layer.** Express routing, body parsing, response types, logging and the SQLite
  connection are not modelled. A handler's result is its outcome, its storage-call trace and the
  table after the call. HTTP statuses are not modelled; the handlers answer 200 on success and
  500 for every failure, including the synchronous `throw 'Missing a column'`, which Express turns
  into a 500.
- **Executing the GET queries.** Their row sets are not modelled; the builders stop at the
  statement text and the bound values.
- **Concurrency.** The race between the existence check and the write of two concurrent requests
  is out of the model: each handler call is atomic over the store.
- **Query parameters as arrays.** Only the single-string form is modelled; a repeated query key
  that Express turns into an array is not.
- **JSON body values.** Only integral numbers and strings are modelled. Fractions, booleans,
  `null`, arrays and objects are not.
- JsText.ParseIntOfDecimal: `parseInt` is exact on all integers. The double rounding above
  2^53, and the exponent spelling of very large numbers, are not modelled.
- JsText.ToLowerCase: lowers ASCII letters only. The only comparison it serves is with `x`.
- MutationGuard.KeyOf: SQLite's type affinity is replaced by one rule. An integer selects itself,
  a string selects the integer it spells in canonical decimal, and any other value selects no
  row. The table's schema is not part of this model.
- MutationGuard.Write: the storage refuses an insert whose case number selects no integer key, or
  one already taken. Other storage errors are not modelled.
- MutationGuard.RemoveIncident: a delete whose storage call fails after the row was found is not
  modelled; the abstract store always removes the row.
- MutationGuard.RemoveIncident: a body without `case_number` leaves the check text undefined. The
  model treats that storage call as failing before it reaches the table: a storage failure with
  no recorded call and the table unchanged. It is neither rejected up front nor turned into an
  unfiltered delete.

The model follows what the code does, including these points where a reader might expect otherwise:

- Closed ranges in `/codes` are not parenthesised (`code >= ? AND code <= ? OR code <= ?`).
  SQL's AND binds tighter than OR, so the text still means the union of the ranges.
- The open-bound tokens `x-N` and `N-x` bind `N` as the text it was written with, not as a parsed
  integer. A token `x` with no dash binds `undefined`.
- `code` takes precedence over `code_range`; the two are never combined.
- A list item or a `limit` with no integer prefix is bound as `NaN`, not rejected. The only
  request the model refuses is a `code_range` token that has no `-` and is not `x`, on which
  `codeRangeInstant` throws.
- The insert's existence check binds `parseInt(case_number)`, while the insert binds the
  case number unchanged.

=== FILE: coderange.dfy ===
/** The code-range tokens of the `/codes` lookup (`x-200`, `300-350`,
    `800-x`): the token parser `codeRangeInstant` and the way the handler
    pushes the bound values the parser hands back. */
module CodeRange {
  import opened Wrappers
  import opened JsText
  import opened Sql

  /** A request the handlers cannot turn into a query: a range token
      without `-` whose text is not `x`, on which the source throws. */
  datatype QueryError = MalformedRange(token: string)

  /** The object `codeRangeInstant` returns. `paramAmt` is `None` when the
      object has no such key; `param` is `PUndef` when it has no `param`. */
  datatype RangeInfo = RangeInfo(sql: string, paramAmt: Option<int>, param: Param, params: seq<Param>)

  /** A token `codeRangeInstant` cannot take apart: no `-`, and not `x`. */
  predicate Malformed(token: string)
  {
    '-' !in token && !(token == "x" || token == "X")
  }

  /** `pieces[i]` pushed as it is: a string, or `undefined` past the end. */
  function PieceAt(pieces: seq<string>, i: nat): Param
  {
    if i < |pieces| then PStr(pieces[i]) else PUndef
  }

  /** `codeRangeInstant(range)`: split on `-`; an `x` before the dash gives
      an upper bound only, an `x` after it a lower bound only, anything else a
      closed range whose two ends are parsed as integers. The open-bound
      branches hand back their bound unparsed. */
  function CodeRangeInstant(range: string): (r: Result<RangeInfo, QueryError>)
    ensures r.Failure? <==> Malformed(range)
    ensures r.Failure? ==> r.error == MalformedRange(range)
  {
    var codeRange := Split(range, '-');
    SplitIsSingle(range, '-');
    LowerIsX(codeRange[0]);
    if ToLowerCase(codeRange[0]) == "x" then
      Success(RangeInfo("code <= ?", Some(1), PieceAt(codeRange, 1), []))
    else if |codeRange| < 2 then
      // `codeRange[1]` is undefined and `.toLowerCase()` throws
      Failure(MalformedRange(range))
    else if ToLowerCase(codeRange[1]) == "x" then
      // the object's key is spelt `params: 1`, so it has no `paramAmt`;
      // that number is never read, so `params` is left empty here
      Success(RangeInfo("code >= ?", None, PStr(codeRange[0]), []))
    else
      Success(RangeInfo("code >= ? AND code <= ?", Some(2), PUndef,
                        [ParseIntParam(codeRange[0]), ParseIntParam(codeRange[1])]))
  }

  /** `arr[i]` on a JavaScript array: `undefined` past the end. */
  function Element(ps: seq<Param>, i: nat): Param
  {
    if i < |ps| then ps[i] else PUndef
  }

  /** The values the `/codes` handler pushes for one token: both `params`
      when `paramAmt` is 2, otherwise the single `param`. */
  function PushedParams(info: RangeInfo): seq<Param>
  {
    if info.paramAmt == Some(2) then [Element(info.params, 0), Element(info.params, 1)]
    else [info.param]
  }

  /** The fragment and the values the handler takes from one token. */
  function TokenStatement(info: RangeInfo): Statement
  {
    Statement(info.sql, PushedParams(info))
  }

  /** What a range token means, stated rule by rule: `x-N` is `code <= N`,
      `N-x` is `code >= N` (both with the bound as written), `N-M` is
      `code >= N AND code <= M` with both ends parsed; `x`/`X` match either
      case, and a token without `-` that is not `x` is rejected. */
  function TokenTerm(token: string): Result<seq<Cmp>, QueryError>
  {
    var pieces := Split(token, '-');
    var a := pieces[0];
    if a == "x" || a == "X" then
      Success([Cmp(Code, AtMost, PieceAt(pieces, 1))])
    else if |pieces| == 1 then
      Failure(MalformedRange(token))
    else if pieces[1] == "x" || pieces[1] == "X" then
      Success([Cmp(Code, AtLeast, PStr(a))])
    else
      Success([Cmp(Code, AtLeast, ParseIntParam(a)), Cmp(Code, AtMost, ParseIntParam(pieces[1]))])
  }

  lemma UpperBoundCmp(v: Param)
    ensures RenderCmp(Cmp(Code, AtMost, v)) == Statement("code <= ?", [v])
  {
    assert ColumnText(Code) + " " + OpText(AtMost) + " ?" == "code <= ?";
  }

  lemma LowerBoundCmp(v: Param)
    ensures RenderCmp(Cmp(Code, AtLeast, v)) == Statement("code >= ?", [v])
  {
    assert ColumnText(Code) + " " + OpText(AtLeast) + " ?" == "code >= ?";
  }

  lemma UpperBoundText(v: Param)
    ensures Conjunct([Cmp(Code, AtMost, v)]) == Statement("code <= ?", [v])
  {
    ConnectivesPlain();
    UpperBoundCmp(v);
  }

  lemma LowerBoundText(v: Param)
    ensures Conjunct([Cmp(Code, AtLeast, v)]) == Statement("code >= ?", [v])
  {
    ConnectivesPlain();
    LowerBoundCmp(v);
  }

  lemma ClosedRangeText(lo: Param, hi: Param)
    ensures Conjunct([Cmp(Code, AtLeast, lo), Cmp(Code, AtMost, hi)])
         == Statement("code >= ? AND code <= ?", [lo, hi])
  {
    var c0, c1 := Cmp(Code, AtLeast, lo), Cmp(Code, AtMost, hi);
    assert Conjunct([c0, c1]) == Statement(RenderCmp(c0).sql + " AND " + RenderCmp(c1).sql, [lo, hi]) by {
      ConnectivesPlain();
      ChainPair(c0, c1, " AND ");
    }
    assert RenderCmp(c0).sql == "code >= ?" by {
      LowerBoundCmp(lo);
    }
    assert RenderCmp(c1).sql == "code <= ?" by {
      UpperBoundCmp(hi);
    }
    ClosedRangeJoin();
  }

  lemma ClosedRangeJoin()
    ensures "code >= ?" + " AND " + "code <= ?" == "code >= ? AND code <= ?"
  {
  }

  /** The handler's reading of `codeRangeInstant`, misspelt key included,
      binds exactly the values the token means, in the order its fragment
      names them: the one-value case falls to the `param` branch. */
  lemma CodeRangeInstantMeaning(token: string)
    ensures CodeRangeInstant(token).Failure? <==> TokenTerm(token).Failure?
    ensures CodeRangeInstant(token).Failure? ==> CodeRangeInstant(token).error == TokenTerm(token).error
    ensures CodeRangeInstant(token).Success? ==>
              TokenStatement(CodeRangeInstant(token).value) == Conjunct(TokenTerm(token).value)
  {
    var pieces := Split(token, '-');
    var r := CodeRangeInstant(token);
    if pieces[0] == "x" || pieces[0] == "X" {
      var v := PieceAt(pieces, 1);
      assert r == Success(RangeInfo("code <= ?", Some(1), v, [])) by {
        LowerIsX(pieces[0]);
      }
      assert TokenStatement(r.value) == Statement("code <= ?", [v]);
      assert TokenTerm(token) == Success([Cmp(Code, AtMost, v)]);
      UpperBoundText(v);
    } else if |pieces| == 1 {
      assert r == Failure(MalformedRange(token)) by {
        LowerIsX(pieces[0]);
      }
    } else if pieces[1] == "x" || pieces[1] == "X" {
      var v := PStr(pieces[0]);
      assert r == Success(RangeInfo("code >= ?", None, v, [])) by {
        LowerIsX(pieces[0]);
        LowerIsX(pieces[1]);
      }
      assert TokenStatement(r.value) == Statement("code >= ?", [v]);
      assert TokenTerm(token) == Success([Cmp(Code, AtLeast, v)]);
      LowerBoundText(v);
    } else {
      var lo, hi := ParseIntParam(pieces[0]), ParseIntParam(pieces[1]);
      assert r == Success(RangeInfo("code >= ? AND code <= ?", Some(2), PUndef, [lo, hi])) by {
        LowerIsX(pieces[0]);
        LowerIsX(pieces[1]);
      }
      assert TokenStatement(r.value) == Statement("code >= ? AND code <= ?", [lo, hi]);
      assert TokenTerm(token) == Success([Cmp(Code, AtLeast, lo), Cmp(Code, AtMost, hi)]);
      ClosedRangeText(lo, hi);
    }
  }

  /** A token `a-b` read through its first two `-`-separated pieces. */
  lemma SplitDashed(a: string, b: string)
    requires '-' !in a
    ensures Split(a + "-" + b, '-') == [a] + Split(b, '-')
  {
    LeadingDash(b);
    SplitPrefix(a, "-" + b, '-');
    ConcatAssoc(a, "-", b);
    Glue(a, Split(a + ("-" + b), '-'), Split("-" + b, '-'), Split(b, '-'));
  }

  lemma LeadingDash(b: string)
    ensures Split("-" + b, '-') == [""] + Split(b, '-')
  {
    var t := "-" + b;
    assert t[0] == '-' && t[1..] == b;
  }

  lemma Glue(a: string, whole: seq<string>, p: seq<string>, q: seq<string>)
    requires p == [""] + q
    requires whole == [a + p[0]] + p[1..]
    ensures whole == [a] + q
  {
    assert a + "" == a;
    assert p[1..] == q;
  }

  /** The three token shapes: for `a-b` (with `b'` the text of `b` up to
      any further `-`), `x-b` binds `b'` unparsed to `code <= ?`, else `a-x`
      binds `a` unparsed to `code >= ?`, else the closed range binds
      `parseInt(a)` then `parseInt(b')` to `code >= ? AND code <= ?`. */
  lemma CodeRangeInstantCases(a: string, b: string)
    requires '-' !in a
    ensures var b' := Split(b, '-')[0];
            var r := CodeRangeInstant(a + "-" + b);
            && r.Success?
            && (if a == "x" || a == "X" then
                  TokenStatement(r.value) == Statement("code <= ?", [PStr(b')])
                else if b' == "x" || b' == "X" then
                  TokenStatement(r.value) == Statement("code >= ?", [PStr(a)])
                else
                  TokenStatement(r.value) == Statement("code >= ? AND code <= ?", [ParseIntParam(a), ParseIntParam(b')]))
  {
    SplitDashed(a, b);
    var token := a + "-" + b;
    assert '-' in token by {
      assert token[|a|] == '-';
    }
    CodeRangeInstantMeaning(token);
    var pieces := Split(token, '-');
    assert pieces[0] == a && pieces[1] == Split(b, '-')[0];
    if a == "x" || a == "X" {
      UpperBoundText(PStr(pieces[1]));
    } else if pieces[1] == "x" || pieces[1] == "X" {
      LowerBoundText(PStr(a));
    } else {
      ClosedRangeText(ParseIntParam(a), ParseIntParam(pieces[1]));
    }
  }
}

=== FILE: incidents.dfy ===
/** The `/incidents` lookup: up to five optional filters, each opening the
    WHERE clause or joining it with AND in a fixed order, then the newest
    first ordering and a row limit that is always bound last. */
module Incidents {
  import opened JsText
  import opened Sql
  import opened Lookups

  // Written in short pieces, each proved `Plain` below (see `Sql.Plain`).
  const IncidentsSelect := "SELECT case_number, " + "date(date_time) AS date, " + "time(date_time) AS time, "
                           + "code, incident, police_grid, " + "neighborhood_number, block" + " FROM Incidents"

  const OrderAndLimit := " ORDER BY date_time DESC LIMIT" + " ?"

  /** The number of rows returned when the request names no `limit`. */
  const DefaultLimit := 1000

  /** The handler's running state: the query so far and how many filters it
      has added (`count`), which picks ` WHERE ` or ` AND ` for the next. */
  datatype Acc = Acc(st: Statement, count: nat)

  /** A date filter: ` WHERE date(date_time) >= ?` (or `<=`, or with
      ` AND `), binding the request's text unparsed. */
  function DateBound(a: Acc, op: Op, value: string): Acc
  {
    Acc(Statement(a.st.sql + Keyword(a.count) + (ColumnText(IncidentDate) + " " + OpText(op) + " ?"),
                  a.st.params + [PStr(value)]),
        a.count + 1)
  }

  /** A list filter: ` WHERE (column = ?` (or with ` AND `), ` OR column = ?`
      for each further item, then `)`; the items are parsed as integers. */
  function ListBound(a: Acc, column: Column, list: string): Acc
  {
    var values := Parsed(Split(list, ','));
    var st := ExactList(Statement(a.st.sql + Keyword(a.count) + "(", a.st.params), column, values);
    Acc(Statement(st.sql + ")", st.params), a.count + 1)
  }

  /** The bound row limit: `parseInt` of `limit` when given, else 1000. */
  function Limit(q: Query): (p: Param)
    ensures "limit" !in q ==> p == PInt(DefaultLimit)
    ensures "limit" in q ==> (p.PInt? || p.PNaN?) && (p.PNaN? <==> ParseInt(q["limit"]).None?)
    ensures "limit" in q && ParseInt(q["limit"]).Some? ==> p == PInt(ParseInt(q["limit"]).value)
  {
    if "limit" in q then ParseIntParam(q["limit"]) else PInt(DefaultLimit)
  }

  /** `if (req.query.hasOwnProperty(key))` around a date filter. */
  function DateFilter(q: Query, key: string, op: Op, a: Acc): Acc
  {
    if key in q then DateBound(a, op, q[key]) else a
  }

  /** `if (req.query.hasOwnProperty(key))` around a list filter. */
  function ListFilter(q: Query, key: string, column: Column, a: Acc): Acc
  {
    if key in q then ListBound(a, column, q[key]) else a
  }

  /** The handler's filters, in its order: start_date, end_date,
      neighborhood, code, grid. */
  function Filtered(q: Query): Acc
  {
    var a0 := Acc(Text(IncidentsSelect), 0);
    var a1 := DateFilter(q, "start_date", AtLeast, a0);
    var a2 := DateFilter(q, "end_date", AtMost, a1);
    var a3 := ListFilter(q, "neighborhood", NeighborhoodNumber, a2);
    var a4 := ListFilter(q, "code", Code, a3);
    ListFilter(q, "grid", PoliceGrid, a4)
  }

  /** The query the `/incidents` handler builds: the filters, then the
      ordering, with the limit bound last. */
  function IncidentsStatement(q: Query): Statement
  {
    var a := Filtered(q);
    Statement(a.st.sql + OrderAndLimit, a.st.params + [Limit(q)])
  }

  // ---------------------------------------------------------------------
  // Reference: the filters as the groups of a WHERE clause
  // ---------------------------------------------------------------------

  function DateGroup(op: Op, value: string): Group
  {
    Bare(Cmp(IncidentDate, op, PStr(value)))
  }

  function ListGroup(column: Column, list: string): Group
  {
    AnyOf(ExactCmps(column, Parsed(Split(list, ','))))
  }

  /** The value of `key`, or the empty text when the request has none. */
  function Get(q: Query, key: string): string
  {
    if key in q then q[key] else ""
  }

  /** `g` when `present`, nothing otherwise. */
  function Opt(present: bool, g: Group): seq<Group>
  {
    if present then [g] else []
  }

  /** The groups a request selects, in the handler's fixed order. */
  function IncidentGroups(q: Query): seq<Group>
  {
    Opt("start_date" in q, DateGroup(AtLeast, Get(q, "start_date")))
    + Opt("end_date" in q, DateGroup(AtMost, Get(q, "end_date")))
    + Opt("neighborhood" in q, ListGroup(NeighborhoodNumber, Get(q, "neighborhood")))
    + Opt("code" in q, ListGroup(Code, Get(q, "code")))
    + Opt("grid" in q, ListGroup(PoliceGrid, Get(q, "grid")))
  }

  /** The `/incidents` query as the WHERE clause of its groups between the
      fixed select and the fixed ordering, with the limit bound last. */
  function IncidentsReference(q: Query): Statement
  {
    Append(Append(Text(IncidentsSelect), Where(IncidentGroups(q))), Statement(OrderAndLimit, [Limit(q)]))
  }

  /** The handler's state after the groups `gs`, started from `pre`. */
  predicate Renders(pre: Statement, a: Acc, gs: seq<Group>)
  {
    a.count == |gs| && a.st == Append(pre, Where(gs))
  }

  lemma DateBoundRenders(pre: Statement, a: Acc, gs: seq<Group>, op: Op, value: string)
    requires Renders(pre, a, gs)
    ensures Renders(pre, DateBound(a, op, value), gs + [DateGroup(op, value)])
  {
    var g := DateGroup(op, value);
    WhereSnoc(gs, g);
    Extend(pre, Where(gs), Keyword(|gs|), RenderGroup(g));
  }

  lemma Regroup(x: string, l: string, y: string, r: string)
    ensures x + l + y + r == x + (l + y + r)
  {
  }


  lemma ListBoundRenders(pre: Statement, a: Acc, gs: seq<Group>, column: Column, list: string)
    requires Renders(pre, a, gs)
    ensures Renders(pre, ListBound(a, column, list), gs + [ListGroup(column, list)])
  {
    var g := ListGroup(column, list);
    var values := Parsed(Split(list, ','));
    var cs := ExactCmps(column, values);
    var chain := Chain(cs, " OR ");
    var head := Statement(a.st.sql + Keyword(a.count) + "(", a.st.params);
    var st := ExactList(head, column, values);
    assert st == Append(head, chain) by {
      ExactListRenders(head, column, values);
    }
    assert RenderGroup(g) == Append(Append(Text("("), chain), Text(")"));
    var b := ListBound(a, column, list);
    assert b.st == Statement(a.st.sql + Keyword(|gs|) + ("(" + chain.sql + ")"), a.st.params + chain.params) by {
      Regroup(a.st.sql + Keyword(|gs|), "(", chain.sql, ")");
    }
    assert RenderGroup(g) == Statement("(" + chain.sql + ")", chain.params) by {
      assert [] + chain.params + [] == chain.params;
    }
    WhereSnoc(gs, g);
    Extend(pre, Where(gs), Keyword(|gs|), RenderGroup(g));
  }

  lemma DateStep(pre: Statement, a: Acc, gs: seq<Group>, q: Query, key: string, op: Op)
    requires Renders(pre, a, gs)
    ensures Renders(pre, DateFilter(q, key, op, a), gs + Opt(key in q, DateGroup(op, Get(q, key))))
  {
    if key in q {
      DateBoundRenders(pre, a, gs, op, q[key]);
    } else {
      assert gs + [] == gs;
    }
  }

  lemma ListStep(pre: Statement, a: Acc, gs: seq<Group>, q: Query, key: string, column: Column)
    requires Renders(pre, a, gs)
    ensures Renders(pre, ListFilter(q, key, column, a), gs + Opt(key in q, ListGroup(column, Get(q, key))))
  {
    if key in q {
      ListBoundRenders(pre, a, gs, column, q[key]);
    } else {
      assert gs + [] == gs;
    }
  }

  /** The `/incidents` handler's query is the WHERE clause of the request's
      groups, taken in the handler's order, followed by the ordering and the
      limit. */
  lemma IncidentsMatchesReference(q: Query)
    ensures IncidentsStatement(q) == IncidentsReference(q)
  {
    FilteredRenders(q);
  }

  lemma FilteredRenders(q: Query)
    ensures Renders(Text(IncidentsSelect), Filtered(q), IncidentGroups(q))
  {
    var pre := Text(IncidentsSelect);
    var a0 := Acc(pre, 0);
    var g0: seq<Group> := [];
    assert Renders(pre, a0, g0) by {
      assert Where(g0) == Text("");
      assert Append(pre, Text("")) == pre;
    }
    var o1 := Opt("start_date" in q, DateGroup(AtLeast, Get(q, "start_date")));
    var o2 := Opt("end_date" in q, DateGroup(AtMost, Get(q, "end_date")));
    var o3 := Opt("neighborhood" in q, ListGroup(NeighborhoodNumber, Get(q, "neighborhood")));
    var o4 := Opt("code" in q, ListGroup(Code, Get(q, "code")));
    var o5 := Opt("grid" in q, ListGroup(PoliceGrid, Get(q, "grid")));
    var a1 := DateFilter(q, "start_date", AtLeast, a0);
    assert Renders(pre, a1, o1) by {
      DateStep(pre, a0, g0, q, "start_date", AtLeast);
      assert g0 + o1 == o1;
    }
    var a2 := DateFilter(q, "end_date", AtMost, a1);
    DateStep(pre, a1, o1, q, "end_date", AtMost);
    var a3 := ListFilter(q, "neighborhood", NeighborhoodNumber, a2);
    ListStep(pre, a2, o1 + o2, q, "neighborhood", NeighborhoodNumber);
    var a4 := ListFilter(q, "code", Code, a3);
    ListStep(pre, a3, o1 + o2 + o3, q, "code", Code);
    ListStep(pre, a4, o1 + o2 + o3 + o4, q, "grid", PoliceGrid);
  }

  // The select text, piece by piece: each piece is free of placeholders, so
  // the whole select is (see `Sql.Plain` for why the text is split).
  lemma SelectPiece1()
    ensures Plain("SELECT case_number, ")
  {
  }

  lemma SelectPiece2()
    ensures Plain("date(date_time) AS date, ")
  {
  }

  lemma SelectPiece3()
    ensures Plain("time(date_time) AS time, ")
  {
  }

  lemma SelectPiece4()
    ensures Plain("code, incident, police_grid, ")
  {
  }

  lemma SelectPiece5()
    ensures Plain("neighborhood_number, block")
  {
  }

  lemma SelectPiece6()
    ensures Plain(" FROM Incidents")
  {
  }

  lemma FixedTexts()
    ensures Plain(IncidentsSelect)
    ensures Placeholders(OrderAndLimit) == 1
  {
    SelectPiece1(); SelectPiece2(); SelectPiece3();
    SelectPiece4(); SelectPiece5(); SelectPiece6();
    assert Plain(" ORDER BY date_time DESC LIMIT");
    PlainHasNone(" ORDER BY date_time DESC LIMIT");
    PlaceholdersAppend(" ORDER BY date_time DESC LIMIT", " ?");
    OnePlaceholder();
  }

  /** A select, a WHERE clause of `gs`, the ordering and the limit: one
      value per placeholder, the limit last. */
  lemma ClauseInStep(gs: seq<Group>, limit: Param)
    ensures var st := Append(Append(Text(IncidentsSelect), Where(gs)), Statement(OrderAndLimit, [limit]));
            InStep(st) && st.params == Values(FlatMap(gs, GroupCmps)) + [limit]
  {
    var head := Append(Text(IncidentsSelect), Where(gs));
    assert InStep(head) && head.params == Values(FlatMap(gs, GroupCmps)) by {
      FixedTexts();
      TextInStep(IncidentsSelect);
      WhereInOrder(gs);
      AppendInStep(Text(IncidentsSelect), Where(gs));
    }
    assert InStep(Statement(OrderAndLimit, [limit])) by {
      FixedTexts();
    }
    AppendInStep(head, Statement(OrderAndLimit, [limit]));
  }

  /** The `/incidents` query binds one value per placeholder: the values of
      the filters in the handler's order, and the row limit last. */
  lemma IncidentsInStep(q: Query)
    ensures InStep(IncidentsStatement(q))
    ensures IncidentsStatement(q).params == Values(FlatMap(IncidentGroups(q), GroupCmps)) + [Limit(q)]
  {
    IncidentsMatchesReference(q);
    ClauseInStep(IncidentGroups(q), Limit(q));
  }

  /** The row limit is always the last bound value, and the text always
      ends with the newest-first ordering and `LIMIT ?`; without `limit` in
      the request it is 1000. */
  lemma IncidentsLimitLast(q: Query)
    ensures var st := IncidentsStatement(q);
            && |st.params| >= 1 && st.params[|st.params| - 1] == Limit(q)
            && |st.sql| >= |OrderAndLimit| && st.sql[|st.sql| - |OrderAndLimit|..] == OrderAndLimit
    ensures "limit" !in q ==> IncidentsStatement(q).params[|IncidentsStatement(q).params| - 1] == PInt(1000)
  {
  }

  /** A request with none of the five filters has no WHERE clause: it reads
      every incident, newest first, binding only the limit; any filter makes
      the query differ from that one. */
  lemma IncidentsUnfiltered(q: Query)
    ensures IncidentGroups(q) == [] <==>
              "start_date" !in q && "end_date" !in q && "neighborhood" !in q && "code" !in q && "grid" !in q
    ensures IncidentsStatement(q) == Statement(IncidentsSelect + OrderAndLimit, [Limit(q)]) <==> IncidentGroups(q) == []
  {
    var gs := IncidentGroups(q);
    assert gs == [] <==> "start_date" !in q && "end_date" !in q && "neighborhood" !in q && "code" !in q && "grid" !in q by {
      NoFilters(q);
    }
    var tail := Statement(OrderAndLimit, [Limit(q)]);
    var head := Text(IncidentsSelect);
    assert IncidentsStatement(q) == Append(Append(head, Where(gs)), tail) by {
      IncidentsMatchesReference(q);
    }
    assert Append(head, tail) == Statement(IncidentsSelect + OrderAndLimit, [Limit(q)]) by {
      TextThen(IncidentsSelect, tail);
    }
    assert Append(Append(head, Where(gs)), tail) == Append(head, tail) <==> gs == [] by {
      NoClause(head, gs, tail);
    }
  }

  /** The request selects no group exactly when it names none of the five
      filters. */
  lemma NoFilters(q: Query)
    ensures IncidentGroups(q) == [] <==>
              "start_date" !in q && "end_date" !in q && "neighborhood" !in q && "code" !in q && "grid" !in q
  {
  }

  /** A WHERE clause between two statements adds text exactly when it has
      a group. */
  lemma NoClause(head: Statement, gs: seq<Group>, tail: Statement)
    ensures Append(Append(head, Where(gs)), tail) == Append(head, tail) <==> gs == []
  {
    WhereInOrder(gs);
    assert |Append(Append(head, Where(gs)), tail).sql| == |head.sql| + |Where(gs).sql| + |tail.sql|;
  }

  /** A list filter renders as `(column = ? OR column = ? ...)`, one
      comparison per listed item, binding the parsed items in order. */
  lemma AnyOfText(column: Column, values: seq<Param>)
    requires |values| >= 1
    ensures RenderGroup(AnyOf(ExactCmps(column, values))) == Statement("(" + (EqText(column) + Repeat(" OR " + EqText(column), |values| - 1)) + ")", values)
  {
    AnyOfRender(ExactCmps(column, values));
    ExactChainShape(column, values);
  }

}

=== FILE: jstext.dfy ===
/** The JavaScript string primitives the request handlers rely on:
    `String.prototype.split` with a one-character separator,
    `String.prototype.toLowerCase`, the global `parseInt` with no radix, and
    the decimal text of an integral number (`String(n)` and template literals). */
module JsText {
  import opened Wrappers

  /** Concatenation of text is associative (stated once, so that proofs
      about literal text need not re-derive it character by character). */
  lemma ConcatAssoc(a: string, b: string, c: string)
    ensures a + (b + c) == a + b + c
  {
  }

  // ---------------------------------------------------------------------
  // split / join
  // ---------------------------------------------------------------------

  /** The separator-joined text of `parts` (`Array.prototype.join`). */
  function Join(parts: seq<string>, sep: char): string
  {
    if |parts| == 0 then ""
    else if |parts| == 1 then parts[0]
    else parts[0] + [sep] + Join(parts[1..], sep)
  }

  /** `s.split(sep)`: the maximal separator-free pieces of `s`, in order.
      Splitting never yields an empty array: `"".split(",")` is `[""]`. */
  function Split(s: string, sep: char): (parts: seq<string>)
    ensures |parts| >= 1
    ensures forall i :: 0 <= i < |parts| ==> sep !in parts[i]
    ensures Join(parts, sep) == s
    decreases |s|
  {
    if |s| == 0 then [""]
    else
      var rest := Split(s[1..], sep);
      if s[0] == sep then
        [""] + rest
      else
        assert Join([[s[0]] + rest[0]] + rest[1..], sep) == [s[0]] + Join(rest, sep) by {
          if |rest| > 1 {
            assert ([[s[0]] + rest[0]] + rest[1..])[1..] == rest[1..];
          }
        }
        [[s[0]] + rest[0]] + rest[1..]
  }

  /** Text splits into a single piece exactly when it has no separator. */
  lemma SplitIsSingle(s: string, sep: char)
    ensures |Split(s, sep)| == 1 <==> sep !in s
  {
    var parts := Split(s, sep);
    if |parts| > 1 {
      assert s == parts[0] + [sep] + Join(parts[1..], sep);
      assert s[|parts[0]|] == sep;
    }
  }

  /** Splitting a separator-free prefix glued to `s` extends the first piece. */
  lemma {:induction false} SplitPrefix(x: string, s: string, sep: char)
    requires sep !in x
    ensures Split(x + s, sep) == [x + Split(s, sep)[0]] + Split(s, sep)[1..]
    decreases |x|
  {
    if |x| == 0 {
      assert x + s == s;
      assert x + Split(s, sep)[0] == Split(s, sep)[0];
      assert Split(s, sep) == [Split(s, sep)[0]] + Split(s, sep)[1..];
    } else {
      var whole := Split(s, sep);
      assert (x + s)[0] == x[0];
      assert (x + s)[1..] == x[1..] + s;
      SplitPrefix(x[1..], s, sep);
      var rest := Split(x[1..] + s, sep);
      assert rest[0] == x[1..] + whole[0];
      assert rest[1..] == whole[1..];
      assert Split(x + s, sep) == [[x[0]] + rest[0]] + rest[1..];
      assert [x[0]] + (x[1..] + whole[0]) == x + whole[0];
    }
  }

  /** Splitting undoes joining, so a comma-separated list of `n` items
      splits into exactly those `n` items, in order. */
  lemma {:induction false} SplitOfJoin(parts: seq<string>, sep: char)
    requires |parts| >= 1
    requires forall i :: 0 <= i < |parts| ==> sep !in parts[i]
    ensures Split(Join(parts, sep), sep) == parts
    decreases |parts|
  {
    if |parts| == 1 {
      SplitPrefix(parts[0], "", sep);
    } else {
      var tail := Join(parts[1..], sep);
      SplitOfJoin(parts[1..], sep);
      assert parts[0] + [sep] + tail == parts[0] + ([sep] + tail);
      SplitPrefix(parts[0], [sep] + tail, sep);
      assert ([sep] + tail)[0] == sep;
      assert ([sep] + tail)[1..] == tail;
      assert Split([sep] + tail, sep) == [""] + Split(tail, sep);
      assert parts[0] + "" == parts[0];
      assert parts == [parts[0]] + parts[1..];
    }
  }

  // ---------------------------------------------------------------------
  // toLowerCase
  // ---------------------------------------------------------------------

  function LowerChar(c: char): char
  {
    if 'A' <= c <= 'Z' then (c as int + 32) as char else c
  }

  /** `s.toLowerCase()` on the ASCII letters. */
  function ToLowerCase(s: string): (t: string)
    ensures |t| == |s|
    ensures forall i :: 0 <= i < |s| ==> t[i] == LowerChar(s[i])
  {
    seq(|s|, i requires 0 <= i < |s| => LowerChar(s[i]))
  }

  /** The comparison `s.toLowerCase() == 'x'` holds for exactly the two
      one-letter strings "x" and "X". */
  lemma LowerIsX(s: string)
    ensures ToLowerCase(s) == "x" <==> s == "x" || s == "X"
  {
    if ToLowerCase(s) == "x" {
      assert |s| == 1 && LowerChar(s[0]) == 'x';
      assert s == [s[0]];
    }
  }

  // ---------------------------------------------------------------------
  // parseInt
  // ---------------------------------------------------------------------

  /** The white space and line terminators `parseInt` skips before a number
      (WhiteSpace and LineTerminator of ECMA-262, by code point). */
  predicate IsJsWhiteSpace(c: char)
  {
    var n := c as int;
    || n == 0x09 || n == 0x0A || n == 0x0B || n == 0x0C || n == 0x0D
    || n == 0x20 || n == 0xA0 || n == 0x1680 || (0x2000 <= n <= 0x200A)
    || n == 0x2028 || n == 0x2029 || n == 0x202F || n == 0x205F
    || n == 0x3000 || n == 0xFEFF
  }

  /** `s` without its leading white space. */
  function TrimStart(s: string): (t: string)
    ensures |t| <= |s| && t == s[|s| - |t|..]
    ensures forall i :: 0 <= i < |s| - |t| ==> IsJsWhiteSpace(s[i])
    ensures |t| == 0 || !IsJsWhiteSpace(t[0])
    decreases |s|
  {
    if |s| > 0 && IsJsWhiteSpace(s[0]) then TrimStart(s[1..]) else s
  }

  /** The value of `c` as a digit of any radix up to 36, if it is one. */
  function DigitOf(c: char): Option<nat>
  {
    if '0' <= c <= '9' then Some(c as int - '0' as int)
    else if 'a' <= c <= 'z' then Some(c as int - 'a' as int + 10)
    else if 'A' <= c <= 'Z' then Some(c as int - 'A' as int + 10)
    else None
  }

  predicate IsDigitOf(c: char, radix: nat)
  {
    DigitOf(c).Some? && DigitOf(c).value < radix
  }

  predicate AllDigits(ds: string, radix: nat)
  {
    forall i :: 0 <= i < |ds| ==> IsDigitOf(ds[i], radix)
  }

  /** The longest prefix of `s` made of digits of `radix`. */
  function DigitPrefix(s: string, radix: nat): (z: string)
    ensures |z| <= |s| && z == s[..|z|]
    ensures AllDigits(z, radix)
    ensures |z| == |s| || !IsDigitOf(s[|z|], radix)
    decreases |s|
  {
    if |s| > 0 && IsDigitOf(s[0], radix) then [s[0]] + DigitPrefix(s[1..], radix) else ""
  }

  /** The number the digit string `ds` spells in `radix`, most significant first. */
  function DigitsValue(ds: string, radix: nat): nat
    requires AllDigits(ds, radix)
    decreases |ds|
  {
    if |ds| == 0 then 0
    else DigitsValue(ds[..|ds| - 1], radix) * radix + DigitOf(ds[|ds| - 1]).value
  }

  /** The unsigned part of `parseInt`: after a `0x`/`0X` prefix the digits
      are read in radix 16, otherwise in radix 10; the longest run of digits
      is read and the rest ignored; no digit at all gives `None`. */
  function ParseMagnitude(u: string): Option<nat>
  {
    var hex := |u| >= 2 && u[0] == '0' && (u[1] == 'x' || u[1] == 'X');
    var radix := if hex then 16 else 10;
    var z := DigitPrefix(if hex then u[2..] else u, radix);
    if |z| == 0 then None else Some(DigitsValue(z, radix))
  }

  /** `parseInt(s)` with no radix argument: skip leading white space, read an
      optional sign, then the magnitude; with no digit the result is `NaN`
      (here `None`). */
  function ParseInt(s: string): Option<int>
  {
    var t := TrimStart(s);
    var negative := |t| > 0 && t[0] == '-';
    var u := if |t| > 0 && (t[0] == '-' || t[0] == '+') then t[1..] else t;
    match ParseMagnitude(u)
    case None => None
    case Some(m) =>
      var v: int := m;
      Some(if negative then 0 - v else v)
  }

  // ---------------------------------------------------------------------
  // decimal text of an integer
  // ---------------------------------------------------------------------

  function DecimalDigit(d: nat): char
    requires d < 10
  {
    ('0' as int + d) as char
  }

  /** The decimal digits of `n`, without leading zeros. */
  function NatText(n: nat): (s: string)
    ensures |s| >= 1
    ensures AllDigits(s, 10)
    decreases n
  {
    if n < 10 then [DecimalDigit(n)] else NatText(n / 10) + [DecimalDigit(n % 10)]
  }

  /** `String(n)` for an integral number `n`. */
  function DecimalText(n: int): string
  {
    if n < 0 then "-" + NatText(-n) else NatText(n)
  }

  lemma {:induction false} NatTextValue(n: nat)
    ensures DigitsValue(NatText(n), 10) == n
    decreases n
  {
    if n >= 10 {
      NatTextValue(n / 10);
      var s := NatText(n);
      assert s[..|s| - 1] == NatText(n / 10);
    }
  }

  /** A radix-10 digit run is exactly what `DigitPrefix` reads, up to the
      first non-digit. */
  lemma {:induction false} DigitPrefixStops(ds: string, rest: string)
    requires AllDigits(ds, 10)
    requires |rest| == 0 || !IsDigitOf(rest[0], 10)
    ensures DigitPrefix(ds + rest, 10) == ds
    decreases |ds|
  {
    if |ds| > 0 {
      assert (ds + rest)[1..] == ds[1..] + rest;
      DigitPrefixStops(ds[1..], rest);
    }
  }

  /** A decimal digit run followed by text that neither continues it nor
      turns a lone `0` into a `0x` prefix is read as that run's value. */
  lemma MagnitudeOfDigits(ds: string, rest: string)
    requires |ds| >= 1 && AllDigits(ds, 10)
    requires |rest| == 0 || (!IsDigitOf(rest[0], 10) && (ds != "0" || (rest[0] != 'x' && rest[0] != 'X')))
    ensures ParseMagnitude(ds + rest) == Some(DigitsValue(ds, 10))
  {
    var u := ds + rest;
    DigitPrefixStops(ds, rest);
    var hex := |u| >= 2 && u[0] == '0' && (u[1] == 'x' || u[1] == 'X');
    assert !hex by {
      if |u| >= 2 {
        if |ds| == 1 {
          assert u[1] == rest[0];
          assert u[0] == '0' ==> ds == "0";
        } else {
          assert u[1] == ds[1] && IsDigitOf(u[1], 10);
        }
      }
    }
    assert DigitPrefix(u, 10) == ds;
  }

  /** `parseInt` reads back the decimal text of any integer, whatever text
      follows it that does not extend the number (`parseInt("12abc")` and
      `parseInt("12x")` are 12); the one exception is `0` followed by `x` or
      `X`, which opens a hexadecimal number (`"0x5"`). */
  lemma ParseIntOfDecimal(n: int, rest: string)
    requires |rest| == 0 || (!IsDigitOf(rest[0], 10) && (n != 0 || (rest[0] != 'x' && rest[0] != 'X')))
    ensures ParseInt(DecimalText(n) + rest) == Some(n)
  {
    var m: nat := if n < 0 then -n else n;
    var u := NatText(m) + rest;
    assert ParseMagnitude(u) == Some(m) by {
      NatTextValue(m);
      assert NatText(m) == "0" ==> m == 0;
      MagnitudeOfDigits(NatText(m), rest);
    }
    assert |u| >= 1 && '0' <= u[0] <= '9' by {
      LeadingDigit(NatText(m), rest);
    }
    var s := DecimalText(n) + rest;
    assert s == u || s == "-" + u by {
      if n < 0 {
        ConcatAssoc("-", NatText(m), rest);
      }
    }
    SignedMagnitude(s, u, m);
  }

  lemma LeadingDigit(ds: string, rest: string)
    requires |ds| >= 1 && AllDigits(ds, 10)
    ensures |ds + rest| >= 1 && '0' <= (ds + rest)[0] <= '9'
  {
    assert IsDigitOf(ds[0], 10);
  }

  lemma SignOrDigitNotSpace(c: char)
    requires c == '-' || '0' <= c <= '9'
    ensures !IsJsWhiteSpace(c)
  {
  }

  /** `parseInt` of an optional `-` and then a magnitude starting with a
      decimal digit. */
  lemma SignedMagnitude(s: string, u: string, m: nat)
    requires |u| >= 1 && '0' <= u[0] <= '9'
    requires s == u || s == "-" + u
    requires ParseMagnitude(u) == Some(m)
    ensures ParseInt(s) == Some(if s == u then m as int else -(m as int))
  {
    assert TrimStart(s) == s by {
      assert s[0] == '-' || s[0] == u[0];
      SignOrDigitNotSpace(s[0]);
    }
    if s != u {
      assert s[1..] == u;
    }
  }


  /** Text containing no decimal digit parses to `NaN`: a `0x` prefix needs
      its `0`, and the radix-10 digit run is empty. */
  lemma ParseIntWithoutDigits(s: string)
    requires forall i :: 0 <= i < |s| ==> !('0' <= s[i] <= '9')
    ensures ParseInt(s) == None
  {
    var t := TrimStart(s);
    var u := if |t| > 0 && (t[0] == '-' || t[0] == '+') then t[1..] else t;
    assert |u| == 0 || !('0' <= u[0] <= '9') by {
      if |u| > 0 {
        assert u[0] == s[|s| - |u|];
      }
    }
    MagnitudeWithoutDigit(u);
  }

  /** Text that does not start with a decimal digit has no magnitude. */
  lemma MagnitudeWithoutDigit(u: string)
    requires |u| == 0 || !('0' <= u[0] <= '9')
    ensures ParseMagnitude(u) == None
  {
    if |u| > 0 {
      assert !IsDigitOf(u[0], 10);
    }
  }
}

=== FILE: lookups.dfy ===
/** The reference-table lookups `/codes` and `/neighborhoods`, and the
    exact-list clause shared with `/incidents`. Each builder is written the
    way the handler assembles its query (text appended in a loop, values
    pushed alongside) and is proved equal to the structured rendering of
    the filter it means. */
module Lookups {
  import opened Wrappers
  import opened JsText
  import opened Sql
  import opened CodeRange

  /** The query string of a request: each key present, with its text. */
  type Query = map<string, string>

  // ---------------------------------------------------------------------
  // exact lists
  // ---------------------------------------------------------------------

  /** `parseInt` of every item of a list, `NaN` passed on. */
  function Parsed(items: seq<string>): (vs: seq<Param>)
    ensures |vs| == |items|
  {
    seq(|items|, i requires 0 <= i < |items| => ParseIntParam(items[i]))
  }

  /** `column = v` for every value of an exact list. */
  function ExactCmps(column: Column, values: seq<Param>): (cs: seq<Cmp>)
    ensures |cs| == |values|
    ensures forall i :: 0 <= i < |values| ==> cs[i] == Cmp(column, Eq, values[i])
  {
    seq(|values|, i requires 0 <= i < |values| => Cmp(column, Eq, values[i]))
  }

  /** The handlers' `for (let i = 1; ...)` loop over the remaining items:
      append ` OR column = ?` and push the `i`-th parsed item. */
  function OrLoop(st: Statement, column: Column, values: seq<Param>, i: nat): Statement
    requires 1 <= i <= |values|
    decreases |values| - i
  {
    if i == |values| then st
    else OrLoop(Statement(st.sql + " OR " + ColumnText(column) + " = ?", st.params + [values[i]]),
                column, values, i + 1)
  }

  /** An exact-list clause after `head` (which ends with ` WHERE ` or an
      opening parenthesis): the first item's `column = ?` and then the loop. */
  function ExactList(head: Statement, column: Column, values: seq<Param>): Statement
    requires |values| >= 1
  {
    OrLoop(Statement(head.sql + ColumnText(column) + " = ?", head.params + [values[0]]),
           column, values, 1)
  }

  lemma EqCmpText(column: Column, v: Param)
    ensures RenderCmp(Cmp(column, Eq, v)) == Statement(ColumnText(column) + " = ?", [v])
  {
    var c := ColumnText(column);
    assert " " + "=" + " ?" == " = ?";
    assert c + " " + "=" + " ?" == c + (" " + "=" + " ?");
  }

  /** One turn of the loop appends ` OR ` and one more comparison. */
  lemma OrStep(st: Statement, column: Column, v: Param)
    ensures Statement(st.sql + " OR " + ColumnText(column) + " = ?", st.params + [v])
         == Append(Append(st, Text(" OR ")), RenderCmp(Cmp(column, Eq, v)))
  {
    EqCmpText(column, v);
    var c := ColumnText(column) + " = ?";
    assert st.sql + " OR " + ColumnText(column) + " = ?" == st.sql + " OR " + c;
  }

  lemma {:induction false} OrLoopRenders(pre: Statement, column: Column, values: seq<Param>, i: nat)
    requires 1 <= i <= |values|
    ensures OrLoop(Append(pre, JoinAll(ExactCmps(column, values)[..i], RenderCmp, " OR ")), column, values, i)
         == Append(pre, JoinAll(ExactCmps(column, values), RenderCmp, " OR "))
    decreases |values| - i
  {
    var cs := ExactCmps(column, values);
    if i == |values| {
      assert cs[..i] == cs;
    } else {
      var front := JoinAll(cs[..i], RenderCmp, " OR ");
      var st := Append(pre, front);
      OrStep(st, column, values[i]);
      assert cs[..i + 1][..i] == cs[..i];
      assert cs[..i + 1][i] == cs[i];
      assert JoinAll(cs[..i + 1], RenderCmp, " OR ") == Append(Append(front, Text(" OR ")), RenderCmp(cs[i]));
      AppendAssoc(pre, Append(front, Text(" OR ")), RenderCmp(cs[i]));
      AppendAssoc(pre, front, Text(" OR "));
      OrLoopRenders(pre, column, values, i + 1);
    }
  }

  /** The loop-built exact list is `head` followed by the items'
      comparisons joined by ` OR `. */
  lemma ExactListRenders(head: Statement, column: Column, values: seq<Param>)
    requires |values| >= 1
    ensures ExactList(head, column, values) == Append(head, Chain(ExactCmps(column, values), " OR "))
  {
    var cs := ExactCmps(column, values);
    ConnectivesPlain();
    assert cs[..1] == [cs[0]];
    EqCmpText(column, values[0]);
    assert JoinAll(cs[..1], RenderCmp, " OR ") == RenderCmp(cs[0]);
    assert Statement(head.sql + ColumnText(column) + " = ?", head.params + [values[0]])
        == Append(head, RenderCmp(cs[0]));
    OrLoopRenders(head, column, values, 1);
  }

  /** The text of a lookup by `n` exact values between `head` and `tail`:
      `column = ?`, then ` OR column = ?` for each further value. */
  function ExactText(head: string, column: Column, n: nat, tail: string): string
    requires n >= 1
  {
    head + EqText(column) + Repeat(" OR " + EqText(column), n - 1) + tail
  }

  /** The lookup by a comma-separated list that `/codes` (with `code`) and
      `/neighborhoods` (with `id`) both build: `head`, the list's
      comparisons, then `tail`. */
  function ExactQuery(head: string, column: Column, list: string, tail: string): Statement
  {
    var st := ExactList(Text(head), column, Parsed(Split(list, ',')));
    Statement(st.sql + tail, st.params)
  }

  /** `s` written `n` times. */
  function Repeat(s: string, n: nat): string
  {
    if n == 0 then "" else Repeat(s, n - 1) + s
  }

  /** The text of one exact-list comparison, `column = ?`. */
  function EqText(column: Column): string
  {
    ColumnText(column) + " = ?"
  }

  /** An exact list of `n` items is `column = ?` followed by `n - 1` copies
      of ` OR column = ?`, bound to the `n` parsed items in list order. */
  lemma ExactChainShape(column: Column, values: seq<Param>)
    requires |values| >= 1
    ensures Chain(ExactCmps(column, values), " OR ")
         == Statement(EqText(column) + Repeat(" OR " + EqText(column), |values| - 1), values)
  {
    var cs := ExactCmps(column, values);
    var j := JoinAll(cs, RenderCmp, " OR ");
    assert j.sql == EqText(column) + Repeat(" OR " + EqText(column), |values| - 1) by {
      ExactJoinText(column, values, " OR ");
    }
    assert Chain(cs, " OR ") == j by {
      ConnectivesPlain();
    }
    assert j.params == values by {
      ConnectivesPlain();
      assert Chain(cs, " OR ").params == Values(cs);
      assert Values(cs) == values;
    }
  }

  /** The text of an exact list joined by `sep`. */
  lemma {:induction false} ExactJoinText(column: Column, values: seq<Param>, sep: string)
    requires |values| >= 1
    ensures JoinAll(ExactCmps(column, values), RenderCmp, sep).sql
         == EqText(column) + Repeat(sep + EqText(column), |values| - 1)
    decreases |values|
  {
    var n := |values|;
    var cs := ExactCmps(column, values);
    var e := EqText(column);
    assert RenderCmp(cs[n - 1]).sql == e by {
      EqCmpText(column, values[n - 1]);
    }
    if n == 1 {
      assert e + "" == e;
    } else {
      var init := values[..n - 1];
      assert JoinAll(cs[..n - 1], RenderCmp, sep).sql == e + Repeat(sep + e, n - 2) by {
        assert cs[..n - 1] == ExactCmps(column, init);
        ExactJoinText(column, init, sep);
      }
      assert JoinAll(cs, RenderCmp, sep).sql == JoinAll(cs[..n - 1], RenderCmp, sep).sql + sep + e by {
        JoinAllLast(cs, RenderCmp, sep);
      }
      Regroup3(e, Repeat(sep + e, n - 2), sep, e);
    }
  }

  lemma Regroup3(a: string, b: string, c: string, d: string)
    ensures a + b + c + d == a + (b + (c + d))
  {
  }

  // ---------------------------------------------------------------------
  // /codes
  // ---------------------------------------------------------------------

  // Fixed texts are written in short pieces (see `Sql.Plain`).
  const CodesSelect := "SELECT code, incident_type as type" + " FROM Codes"
  const CodesWhere := CodesSelect + " WHERE "
  const CodesOrder := " ORDER BY code;"

  /** The `code_range` loop: parse each token, append ` OR ` before every
      fragment but the first, append the fragment and push its values. A
      token the parser rejects abandons the whole request. */
  function RangeLoop(st: Statement, tokens: seq<string>, i: nat, count: nat): Result<Statement, QueryError>
    requires i <= |tokens|
    decreases |tokens| - i
  {
    if i == |tokens| then Success(st)
    else
      var codeInfo :- CodeRangeInstant(tokens[i]);
      var sql := if count != 0 then st.sql + " OR " else st.sql;
      RangeLoop(Statement(sql + codeInfo.sql, st.params + PushedParams(codeInfo)), tokens, i + 1, count + 1)
  }

  /** The query the `/codes` handler builds: an exact `code` list, or else
      a `code_range` list, or no filter; always ordered by code. */
  function CodesStatement(q: Query): Result<Statement, QueryError>
  {
    if "code" in q then
      Success(ExactQuery(CodesWhere, Code, q["code"], CodesOrder))
    else if "code_range" in q then
      var st :- RangeLoop(Text(CodesSelect + " WHERE "), Split(q["code_range"], ','), 0, 0);
      Success(Statement(st.sql + " ORDER BY code;", st.params))
    else
      Success(Statement(CodesSelect + " ORDER BY code;", []))
  }

  /** The meaning of a range list: one term per token, in token order;
      the first malformed token rejects the list. */
  function TokenTerms(tokens: seq<string>): (r: Result<seq<seq<Cmp>>, QueryError>)
    ensures r.Success? ==> |r.value| == |tokens|
    ensures r.Success? ==> forall j :: 0 <= j < |tokens| ==> TokenTerm(tokens[j]) == Success(r.value[j])
    decreases |tokens|
  {
    if |tokens| == 0 then Success([])
    else
      var front := tokens[..|tokens| - 1];
      assert forall j :: 0 <= j < |front| ==> front[j] == tokens[j];
      var init :- TokenTerms(front);
      var t :- TokenTerm(tokens[|tokens| - 1]);
      Success(init + [t])
  }

  /** A range list is rejected exactly when one of its tokens is, and with
      the error of such a token. */
  lemma {:induction false} TokenTermsFailure(tokens: seq<string>)
    ensures TokenTerms(tokens).Failure? <==> exists j :: 0 <= j < |tokens| && TokenTerm(tokens[j]).Failure?
    ensures TokenTerms(tokens).Failure? ==> exists j :: 0 <= j < |tokens| && TokenTerm(tokens[j]) == Failure(TokenTerms(tokens).error)
    decreases |tokens|
  {
    if |tokens| > 0 {
      var n := |tokens|;
      var front := tokens[..n - 1];
      TokenTermsFailure(front);
      assert forall j :: 0 <= j < |front| ==> front[j] == tokens[j];
      if TokenTerms(front).Failure? {
        var j :| 0 <= j < |front| && TokenTerm(front[j]) == Failure(TokenTerms(front).error);
        assert TokenTerm(tokens[j]) == Failure(TokenTerms(tokens).error);
      } else if TokenTerm(tokens[n - 1]).Failure? {
        assert TokenTerm(tokens[n - 1]) == Failure(TokenTerms(tokens).error);
      } else {
        assert forall j :: 0 <= j < n ==> TokenTerm(tokens[j]).Success? by {
          forall j | 0 <= j < n
            ensures TokenTerm(tokens[j]).Success?
          {
            if j < n - 1 {
              assert TokenTerm(front[j]) == Success(TokenTerms(front).value[j]);
            }
          }
        }
      }
    }
  }

  function Singletons(cs: seq<Cmp>): (ts: seq<seq<Cmp>>)
    ensures |ts| == |cs| && forall i :: 0 <= i < |cs| ==> ts[i] == [cs[i]]
  {
    seq(|cs|, i requires 0 <= i < |cs| => [cs[i]])
  }

  /** The alternatives a `/codes` request selects: one per listed code when
      `code` is given (any `code_range` is then ignored), one per range token
      otherwise, none without either key. */
  function CodesTerms(q: Query): Result<seq<seq<Cmp>>, QueryError>
  {
    if "code" in q then Success(Singletons(ExactCmps(Code, Parsed(Split(q["code"], ',')))))
    else if "code_range" in q then TokenTerms(Split(q["code_range"], ','))
    else Success([])
  }

  /** The `/codes` query as a rendering of its alternatives. */
  function CodesReference(terms: seq<seq<Cmp>>): Statement
  {
    var w := if |terms| == 0 then Text("") else Append(Text(" WHERE "), Disjunction(terms));
    Append(Append(Text(CodesSelect), w), Text(" ORDER BY code;"))
  }

  lemma {:induction false} SingletonsJoin(cs: seq<Cmp>)
    ensures JoinAll(Singletons(cs), Conjunct, " OR ") == JoinAll(cs, RenderCmp, " OR ")
    decreases |cs|
  {
    ConnectivesPlain();
    var n := |cs|;
    if n == 1 {
      assert [cs[0]][..0] == [];
      assert Conjunct([cs[0]]) == RenderCmp(cs[0]);
    } else if n > 1 {
      SingletonsJoin(cs[..n - 1]);
      assert Singletons(cs)[..n - 1] == Singletons(cs[..n - 1]);
      assert [cs[n - 1]][..0] == [];
      assert Conjunct([cs[n - 1]]) == RenderCmp(cs[n - 1]);
    }
  }

  lemma DisjunctionSnoc(terms: seq<seq<Cmp>>, t: seq<Cmp>)
    requires |terms| >= 1
    ensures Disjunction(terms + [t]) == Append(Append(Disjunction(terms), Text(" OR ")), Conjunct(t))
  {
    var all := terms + [t];
    assert all[..|terms|] == terms;
    assert all[|terms|] == t;
  }

  /** The `/codes` statement for a rendered list of alternatives after `pre`. */
  function Rendered(pre: Statement, r: Result<seq<seq<Cmp>>, QueryError>): Result<Statement, QueryError>
  {
    match r
    case Success(terms) => Success(Append(pre, Disjunction(terms)))
    case Failure(e) => Failure(e)
  }

  /** Once a prefix of the tokens is rejected, the whole list is, with the
      same error. */
  lemma {:induction false} TokenTermsPrefixFailure(tokens: seq<string>, k: nat)
    requires k <= |tokens|
    requires TokenTerms(tokens[..k]).Failure?
    ensures TokenTerms(tokens) == TokenTerms(tokens[..k])
    decreases |tokens| - k
  {
    if k < |tokens| {
      var next := tokens[..k + 1];
      assert next[..k] == tokens[..k];
      assert TokenTerms(next) == TokenTerms(tokens[..k]);
      TokenTermsPrefixFailure(tokens, k + 1);
    } else {
      assert tokens[..k] == tokens;
    }
  }

  /** One more accepted token extends the list of alternatives by its term. */
  lemma TokenTermsSnoc(tokens: seq<string>, i: nat)
    requires i < |tokens|
    ensures var prefix := TokenTerms(tokens[..i]);
            var t := TokenTerm(tokens[i]);
            TokenTerms(tokens[..i + 1])
              == if prefix.Failure? then prefix
                 else if t.Failure? then Failure(t.error)
                 else Success(prefix.value + [t.value])
  {
    var next := tokens[..i + 1];
    assert next[..i] == tokens[..i];
    assert next[i] == tokens[i];
  }

  /** One turn of the range loop, past the first token: ` OR ` and the
      token's fragment extend the alternatives rendered so far. */
  lemma RangeStep(pre: Statement, terms: seq<seq<Cmp>>, info: RangeInfo, t: seq<Cmp>)
    requires |terms| >= 1
    requires TokenStatement(info) == Conjunct(t)
    ensures Statement(Append(pre, Disjunction(terms)).sql + " OR " + info.sql,
                      Append(pre, Disjunction(terms)).params + PushedParams(info))
         == Append(pre, Disjunction(terms + [t]))
  {
    var d := Disjunction(terms);
    DisjunctionSnoc(terms, t);
    AppendAssoc(pre, Append(d, Text(" OR ")), Conjunct(t));
    AppendAssoc(pre, d, Text(" OR "));
  }

  lemma {:induction false} RangeLoopRenders(pre: Statement, tokens: seq<string>, i: nat)
    requires 0 < i <= |tokens|
    requires TokenTerms(tokens[..i]).Success?
    ensures RangeLoop(Append(pre, Disjunction(TokenTerms(tokens[..i]).value)), tokens, i, i)
         == Rendered(pre, TokenTerms(tokens))
    decreases |tokens| - i
  {
    var terms := TokenTerms(tokens[..i]).value;
    var st := Append(pre, Disjunction(terms));
    if i == |tokens| {
      assert tokens[..i] == tokens;
    } else {
      CodeRangeInstantMeaning(tokens[i]);
      TokenTermsSnoc(tokens, i);
      match CodeRangeInstant(tokens[i])
      case Failure(e) =>
        TokenTermsPrefixFailure(tokens, i + 1);
      case Success(info) =>
        var t := TokenTerm(tokens[i]).value;
        RangeStep(pre, terms, info, t);
        RangeLoopRenders(pre, tokens, i + 1);
    }
  }

  lemma TokenTermsOne(tokens: seq<string>)
    requires |tokens| >= 1
    ensures var t := TokenTerm(tokens[0]);
            TokenTerms(tokens[..1]) == if t.Failure? then Failure(t.error) else Success([t.value])
  {
    TokenTermsSnoc(tokens, 0);
    assert tokens[..0] == [];
    assert TokenTerms([]) == Success([]);
    var t := TokenTerm(tokens[0]);
    if t.Success? {
      assert [] + [t.value] == [t.value];
    }
  }

  /** The whole range loop renders the alternatives of all tokens after
      `pre`, or fails on the first malformed token. */
  lemma RangeLoopStart(pre: Statement, tokens: seq<string>)
    requires |tokens| >= 1
    ensures RangeLoop(pre, tokens, 0, 0) == Rendered(pre, TokenTerms(tokens))
  {
    var r := CodeRangeInstant(tokens[0]);
    var t := TokenTerm(tokens[0]);
    TokenTermsOne(tokens);
    assert r.Failure? <==> t.Failure? by {
      CodeRangeInstantMeaning(tokens[0]);
    }
    if r.Failure? {
      assert r.error == t.error by {
        CodeRangeInstantMeaning(tokens[0]);
      }
      assert RangeLoop(pre, tokens, 0, 0) == Failure(r.error);
      TokenTermsPrefixFailure(tokens, 1);
    } else {
      var info := r.value;
      var st := Statement(pre.sql + info.sql, pre.params + PushedParams(info));
      assert RangeLoop(pre, tokens, 0, 0) == RangeLoop(st, tokens, 1, 1);
      assert TokenStatement(info) == Conjunct(t.value) by {
        CodeRangeInstantMeaning(tokens[0]);
      }
      assert st == Append(pre, Disjunction([t.value])) by {
        assert Disjunction([t.value]) == Conjunct(t.value);
      }
      RangeLoopRenders(pre, tokens, 1);
    }
  }

  /** The `/codes` handler's query is the rendering of the alternatives the
      request selects, and it is rejected exactly when they are. */
  lemma CodesMatchesReference(q: Query)
    ensures CodesStatement(q).Failure? <==> CodesTerms(q).Failure?
    ensures CodesStatement(q).Failure? ==> CodesStatement(q).error == CodesTerms(q).error
    ensures CodesStatement(q).Success? ==> CodesStatement(q).value == CodesReference(CodesTerms(q).value)
  {
    var pre := Text(CodesSelect + " WHERE ");
    assert pre == Append(Text(CodesSelect), Text(" WHERE "));
    if "code" in q {
      var values := Parsed(Split(q["code"], ','));
      var cs := ExactCmps(Code, values);
      assert ExactList(pre, Code, values) == Append(pre, Disjunction(Singletons(cs))) by {
        ExactListRenders(pre, Code, values);
        SingletonsJoin(cs);
        ConnectivesPlain();
      }
      CodesOrderTail(Disjunction(Singletons(cs)));
    } else if "code_range" in q {
      var tokens := Split(q["code_range"], ',');
      RangeLoopStart(pre, tokens);
      if TokenTerms(tokens).Success? {
        CodesOrderTail(Disjunction(TokenTerms(tokens).value));
      }
    } else {
      assert Text(CodesSelect + " ORDER BY code;") == CodesReference([]) by {
        AppendUnit(Text(CodesSelect));
        assert Append(Text(CodesSelect), Text("")) == Text(CodesSelect);
      }
    }
  }

  /** Appending the fixed ordering to `SELECT ... WHERE <d>`. */
  lemma CodesOrderTail(d: Statement)
    ensures var st := Append(Text(CodesSelect + " WHERE "), d);
            Statement(st.sql + " ORDER BY code;", st.params)
              == Append(Append(Text(CodesSelect), Append(Text(" WHERE "), d)), Text(" ORDER BY code;"))
  {
    var st := Append(Text(CodesSelect + " WHERE "), d);
    assert Text(CodesSelect + " WHERE ") == Append(Text(CodesSelect), Text(" WHERE "));
    AppendAssoc(Text(CodesSelect), Text(" WHERE "), d);
    assert st.params + [] == st.params;
  }

  lemma CodesFixedTexts()
    ensures Plain(CodesSelect) && Plain(CodesSelect + " WHERE ") && Plain(" ORDER BY code;")
  {
    ConnectivesPlain();
  }

  lemma CodesReferenceInStep(terms: seq<seq<Cmp>>)
    ensures InStep(CodesReference(terms))
    ensures CodesReference(terms).params == Values(FlatMap(terms, Itself))
  {
    var w := if |terms| == 0 then Text("") else Append(Text(" WHERE "), Disjunction(terms));
    assert InStep(w) && w.params == Values(FlatMap(terms, Itself)) by {
      if |terms| == 0 {
        TextInStep("");
        assert FlatMap(terms, Itself) == [];
      } else {
        ConnectivesPlain();
        TextInStep(" WHERE ");
        AppendInStep(Text(" WHERE "), Disjunction(terms));
      }
    }
    CodesFixedTexts();
    TextInStep(CodesSelect);
    TextInStep(" ORDER BY code;");
    AppendInStep(Text(CodesSelect), w);
    AppendInStep(Append(Text(CodesSelect), w), Text(" ORDER BY code;"));
  }

  /** A range token is rejected exactly when it is malformed. */
  lemma TokenTermRejects(token: string)
    ensures TokenTerm(token).Failure? <==> Malformed(token)
    ensures TokenTerm(token).Failure? ==> TokenTerm(token).error == MalformedRange(token)
  {
    CodeRangeInstantMeaning(token);
  }

  /** The `/codes` query binds exactly one value per placeholder, in the
      order of the alternatives. */
  lemma CodesInStep(q: Query)
    ensures CodesStatement(q).Success? ==>
              CodesTerms(q).Success? && InStep(CodesStatement(q).value)
              && CodesStatement(q).value.params == Values(FlatMap(CodesTerms(q).value, Itself))
  {
    CodesMatchesReference(q);
    if CodesStatement(q).Success? {
      CodesReferenceInStep(CodesTerms(q).value);
    }
  }

  /** The `/codes` request is refused only for a `code_range` list (with no
      `code`) holding a malformed token, and the refusal names one. */
  lemma CodesRejects(q: Query)
    ensures CodesStatement(q).Failure? <==>
              "code" !in q && "code_range" in q
              && exists j :: 0 <= j < |Split(q["code_range"], ',')| && Malformed(Split(q["code_range"], ',')[j])
    ensures CodesStatement(q).Failure? ==>
              "code" !in q && "code_range" in q
              && exists j :: 0 <= j < |Split(q["code_range"], ',')|
                             && Malformed(Split(q["code_range"], ',')[j])
                             && CodesStatement(q).error == MalformedRange(Split(q["code_range"], ',')[j])
  {
    assert CodesStatement(q).Failure? <==> CodesTerms(q).Failure? by {
      CodesMatchesReference(q);
    }
    assert CodesStatement(q).Failure? ==> CodesStatement(q).error == CodesTerms(q).error by {
      CodesMatchesReference(q);
    }
    if "code" !in q && "code_range" in q {
      var tokens := Split(q["code_range"], ',');
      assert CodesTerms(q) == TokenTerms(tokens);
      TokenTermsFailure(tokens);
      forall j | 0 <= j < |tokens|
        ensures TokenTerm(tokens[j]).Failure? <==> Malformed(tokens[j])
        ensures TokenTerm(tokens[j]).Failure? ==> TokenTerm(tokens[j]).error == MalformedRange(tokens[j])
      {
        TokenTermRejects(tokens[j]);
      }
    }
  }

  /** An exact-list clause after any statement: `column = ?`, then
      ` OR column = ?` per further value, the values bound after the
      statement's own. */
  lemma ExactListText(pre: Statement, column: Column, values: seq<Param>)
    requires |values| >= 1
    ensures ExactList(pre, column, values)
         == Statement(pre.sql + (EqText(column) + Repeat(" OR " + EqText(column), |values| - 1)), pre.params + values)
    ensures InStep(pre) ==> InStep(ExactList(pre, column, values))
  {
    var chain := Chain(ExactCmps(column, values), " OR ");
    assert ExactList(pre, column, values) == Append(pre, chain) by {
      ExactListRenders(pre, column, values);
    }
    assert chain == Statement(EqText(column) + Repeat(" OR " + EqText(column), |values| - 1), values)
           && InStep(chain) by {
      ExactChainShape(column, values);
      ConnectivesPlain();
    }
    if InStep(pre) {
      AppendInStep(pre, chain);
    }
  }

  /** The query of a lookup by exact values: `column = ?` for the first
      value and ` OR column = ?` for each further one, with the values bound
      in order, between the fixed head and the fixed tail. */
  lemma ExactLookupShape(head: string, column: Column, values: seq<Param>, tail: string)
    requires |values| >= 1
    requires Plain(head) && Plain(tail)
    ensures var st := ExactList(Text(head), column, values);
            var whole := Statement(st.sql + tail, st.params);
            whole == Statement(ExactText(head, column, |values|, tail), values) && InStep(whole)
  {
    var e := EqText(column);
    var rep := Repeat(" OR " + e, |values| - 1);
    var st := ExactList(Text(head), column, values);
    assert st == Statement(head + (e + rep), values) && InStep(st) by {
      TextInStep(head);
      ExactListText(Text(head), column, values);
      assert [] + values == values;
    }
    assert InStep(Statement(st.sql + tail, st.params)) by {
      TextInStep(tail);
      AppendInStep(st, Text(tail));
      assert st.params + [] == st.params;
    }
    assert head + (e + rep) + tail == ExactText(head, column, |values|, tail) by {
      ConcatAssoc(head, e, rep);
    }
  }

  /** An exact-list lookup between placeholder-free texts: one
      `column = ?` per listed item, joined by ` OR `, the items parsed as
      integers and bound in order. */
  lemma ExactQueryShape(head: string, column: Column, list: string, tail: string)
    requires Plain(head) && Plain(tail)
    ensures var items := Split(list, ',');
            ExactQuery(head, column, list, tail) == Statement(ExactText(head, column, |items|, tail), Parsed(items))
    ensures InStep(ExactQuery(head, column, list, tail))
  {
    ExactLookupShape(head, column, Parsed(Split(list, ',')), tail);
  }

  /** `/codes?code=...`: one `code = ?` per listed item, the items parsed as
      integers and bound in order; any `code_range` is ignored. */
  lemma CodesExactList(q: Query)
    requires "code" in q
    ensures var items := Split(q["code"], ',');
            CodesStatement(q) == Success(Statement(
              ExactText(CodesWhere, Code, |items|, CodesOrder),
              Parsed(items)))
    ensures CodesStatement(q) == CodesStatement(q - {"code_range"})
  {
    var query := ExactQuery(CodesWhere, Code, q["code"], CodesOrder);
    assert CodesStatement(q) == Success(query);
    assert CodesStatement(q - {"code_range"}) == Success(query) by {
      var rest := q - {"code_range"};
      assert "code" in rest && rest["code"] == q["code"];
    }
    var items := Split(q["code"], ',');
    assert Plain(CodesWhere) && Plain(CodesOrder) by {
      CodesFixedTexts();
    }
    ExactQueryShape(CodesWhere, Code, q["code"], CodesOrder);
  }

  /** `/codes` with neither key selects every code, in code order. */
  lemma CodesUnfiltered(q: Query)
    requires "code" !in q && "code_range" !in q
    ensures CodesStatement(q) == Success(CodesReference([]))
    ensures CodesStatement(q).value.params == []
  {
    CodesMatchesReference(q);
  }

  const NeighborhoodsSelect := "SELECT neighborhood_number as id, " + "neighborhood_name as name" + " FROM Neighborhoods"
  const NeighborhoodsWhere := NeighborhoodsSelect + " WHERE "
  const NeighborhoodsOrder := " ORDER BY id;"

  /** The query the `/neighborhoods` handler builds: an exact `id` list when
      given, always ordered by id. */
  function NeighborhoodsStatement(q: Query): Statement
  {
    if "id" in q then
      ExactQuery(NeighborhoodsWhere, NeighborhoodNumber, q["id"], NeighborhoodsOrder)
    else
      Statement(NeighborhoodsSelect + NeighborhoodsOrder, [])
  }

  lemma NeighborhoodsFixedTexts()
    ensures Plain(NeighborhoodsSelect) && Plain(NeighborhoodsWhere)
    ensures Plain(NeighborhoodsOrder) && Plain(NeighborhoodsSelect + NeighborhoodsOrder)
  {
    ConnectivesPlain();
  }

  /** `/neighborhoods`: one `neighborhood_number = ?` per listed id, bound
      in order as parsed integers; without `id`, every neighborhood and no
      value. Either way one value per placeholder. */
  lemma NeighborhoodsShape(q: Query)
    ensures "id" in q ==>
              var items := Split(q["id"], ',');
              NeighborhoodsStatement(q) == Statement(ExactText(NeighborhoodsWhere, NeighborhoodNumber, |items|, NeighborhoodsOrder),
                                                     Parsed(items))
    ensures "id" !in q ==> NeighborhoodsStatement(q).params == []
    ensures InStep(NeighborhoodsStatement(q))
  {
    NeighborhoodsFixedTexts();
    if "id" in q {
      ExactQueryShape(NeighborhoodsWhere, NeighborhoodNumber, q["id"], NeighborhoodsOrder);
    } else {
      TextInStep(NeighborhoodsSelect + NeighborhoodsOrder);
    }
  }
}

=== FILE: mutationguard.dfy ===
/** The two handlers that change the incident table. `PUT /new-incident`
    inserts a row unless a row with its case number is already present, and
    `DELETE /remove-incident` removes a row only after finding it. The table
    is an abstract store keyed by case number, and every statement a handler
    hands to the storage is recorded, in order, in a call trace. */
module MutationGuard {
  import opened Wrappers
  import opened JsText
  import opened Sql

  // ---------------------------------------------------------------------
  // request bodies and the table
  // ---------------------------------------------------------------------

  /** A JSON body value: an integral number or a string. */
  datatype Json = JNum(n: int) | JStr(s: string)

  type Body = map<string, Json>

  /** A body value as a template literal spells it. */
  function Spelled(v: Json): string
  {
    match v
    case JNum(n) => DecimalText(n)
    case JStr(s) => s
  }

  /** A body value handed to the storage unchanged. */
  function Bound(v: Json): (p: Param)
    ensures p.PInt? <==> v.JNum?
    ensures p.PInt? ==> p.n == v.n
    ensures p.PStr? ==> p.s == v.s
  {
    match v
    case JNum(n) => PInt(n)
    case JStr(s) => PStr(s)
  }

  /** One row of the incident table, as the insert binds its seven columns. */
  datatype Incident = Incident(caseNumber: Param, dateTime: Param, code: Param, incident: Param,
                               policeGrid: Param, neighborhoodNumber: Param, block: Param)

  type Store = map<int, Incident>

  /** The case number a bound value selects: an integer selects itself, a
      string selects the integer it spells in canonical decimal, anything
      else (`NaN`, `undefined`, other text) selects no row. */
  function KeyOf(p: Param): (k: Option<int>)
    ensures p.PInt? ==> k == Some(p.n)
    ensures k.Some? ==> p == PInt(k.value) || p == PStr(DecimalText(k.value))
  {
    match p
    case PInt(n) => Some(n)
    case PStr(s) =>
      (match ParseInt(s)
       case Some(n) => if DecimalText(n) == s then Some(n) else None
       case None => None)
    case _ => None
  }

  /** The canonical spelling of every integer selects that integer. */
  lemma KeyOfDecimal(k: int)
    ensures KeyOf(PStr(DecimalText(k))) == Some(k)
  {
    assert DecimalText(k) + "" == DecimalText(k);
    ParseIntOfDecimal(k, "");
  }

  /** The rows a `WHERE case_number = ?` lookup returns for the bound value. */
  function Lookup(store: Store, p: Param): (rows: seq<Incident>)
    ensures |rows| <= 1
    ensures |rows| != 0 <==> KeyOf(p).Some? && KeyOf(p).value in store
    ensures |rows| != 0 ==> rows == [store[KeyOf(p).value]]
  {
    match KeyOf(p)
    case Some(k) => if k in store then [store[k]] else []
    case None => []
  }

  /** A statement handed to the storage: a lookup or a change. */
  datatype Call = Select(st: Statement) | Run(st: Statement)

  datatype Outcome = Ok | MissingColumn | DuplicateCase | NotFound | StorageFailure

  /** What a handler answers, what it asked of the storage, and the table after. */
  datatype Response = Response(outcome: Outcome, calls: seq<Call>, store: Store)

  // ---------------------------------------------------------------------
  // statement texts
  // ---------------------------------------------------------------------

  // The texts are written in short pieces, each proved `Plain` by its own
  // one-line lemma below (see `Sql.Plain` for why).
  const CaseNumberIs := " WHERE case_number =" + " ?"
  const InsertHead := "INSERT INTO Incidents " + "(case_number, date_time, " + "code, incident, police_grid, "
                      + "neighborhood_number, block) " + "VALUES ("
  const InsertCheckSql := "SELECT * FROM Incidents" + CaseNumberIs
  const DeleteCheckSql := "SELECT case_number" + " FROM Incidents" + CaseNumberIs
  const DeleteSql := "DELETE FROM Incidents" + CaseNumberIs

  /** The value list closing the insert: `n` placeholders and `)`. */
  function Marks(n: nat): (s: string)
    requires n >= 1
    ensures Placeholders(s) == n
  {
    if n == 1 then
      assert "?)"[1..] == ")" && ")"[1..] == "";
      "?)"
    else
      PlaceholdersAppend("?, ", Marks(n - 1));
      assert "?, "[1..] == ", " && ", "[1..] == " " && " "[1..] == "";
      "?, " + Marks(n - 1)
  }

  lemma MarksText()
    ensures Marks(7) == "?, ?, ?, ?, ?, ?, ?)"
  {
    assert Marks(2) == "?, ?)";
    assert Marks(3) == "?, ?, ?)";
    assert Marks(4) == "?, ?, ?, ?)";
    assert Marks(5) == "?, ?, ?, ?, ?)";
    assert Marks(6) == "?, ?, ?, ?, ?, ?)";
  }

  // The placeholder-free pieces of the insert, check and delete texts.
  lemma HeadPiece1() ensures Plain("INSERT INTO Incidents ") {}
  lemma HeadPiece2() ensures Plain("(case_number, date_time, ") {}
  lemma HeadPiece3() ensures Plain("code, incident, police_grid, ") {}
  lemma HeadPiece4() ensures Plain("neighborhood_number, block) ") {}
  lemma HeadPiece5() ensures Plain("VALUES (") {}
  lemma CheckPiece1() ensures Plain("SELECT * FROM Incidents") {}
  lemma CheckPiece2() ensures Plain("SELECT case_number" + " FROM Incidents") {}
  lemma CheckPiece3() ensures Plain("DELETE FROM Incidents") {}
  lemma CheckPiece4() ensures Plain(" WHERE case_number =") {}

  lemma InsertHeadPlain()
    ensures Placeholders(InsertHead) == 0
  {
    HeadPiece1(); HeadPiece2(); HeadPiece3(); HeadPiece4(); HeadPiece5();
    PlainHasNone(InsertHead);
  }

  /** A placeholder-free text followed by the case-number condition. */
  lemma CaseNumberAfter(head: string)
    requires Plain(head)
    ensures Placeholders(head + CaseNumberIs) == 1
  {
    PlainHasNone(head);
    assert Placeholders(CaseNumberIs) == 1 by {
      CheckPiece4();
      PlainHasNone(" WHERE case_number =");
      OnePlaceholder();
      PlaceholdersAppend(" WHERE case_number =", " ?");
    }
    PlaceholdersAppend(head, CaseNumberIs);
  }

  /** Each lookup and delete text has exactly one placeholder. */
  lemma CaseNumberTexts()
    ensures Placeholders(InsertCheckSql) == 1
    ensures Placeholders(DeleteCheckSql) == 1
    ensures Placeholders(DeleteSql) == 1
  {
    assert Placeholders(InsertCheckSql) == 1 by {
      CheckPiece1();
      CaseNumberAfter("SELECT * FROM Incidents");
    }
    assert Placeholders(DeleteCheckSql) == 1 by {
      CheckPiece2();
      CaseNumberAfter("SELECT case_number" + " FROM Incidents");
    }
    assert Placeholders(DeleteSql) == 1 by {
      CheckPiece3();
      CaseNumberAfter("DELETE FROM Incidents");
    }
  }

  // ---------------------------------------------------------------------
  // PUT /new-incident
  // ---------------------------------------------------------------------

  /** The body carries every column the insert needs; the handler throws
      "Missing a column" otherwise. */
  predicate Complete(body: Body)
  {
    && "case_number" in body
    && ("date" in body && "time" in body)
    && "code" in body
    && "incident" in body
    && "police_grid" in body
    && "neighborhood_number" in body
    && "block" in body
  }

  const RequiredFields: seq<string> :=
    ["case_number", "date", "time", "code", "incident", "police_grid", "neighborhood_number", "block"]

  lemma CompleteMeansAllFields(body: Body)
    ensures Complete(body) <==> forall i :: 0 <= i < |RequiredFields| ==> RequiredFields[i] in body
  {
    if forall i :: 0 <= i < |RequiredFields| ==> RequiredFields[i] in body {
      assert RequiredFields[0] in body && RequiredFields[1] in body && RequiredFields[2] in body;
      assert RequiredFields[3] in body && RequiredFields[4] in body && RequiredFields[5] in body;
      assert RequiredFields[6] in body && RequiredFields[7] in body;
    }
  }

  /** The row the insert binds: the body's values unchanged, except that the
      date and time are joined as `date` + "T" + `time`. */
  function NewRow(body: Body): (row: Incident)
    requires Complete(body)
    ensures row.caseNumber == Bound(body["case_number"])
    ensures row.dateTime == PStr(Spelled(body["date"]) + "T" + Spelled(body["time"]))
  {
    Incident(Bound(body["case_number"]), PStr(Spelled(body["date"]) + "T" + Spelled(body["time"])),
             Bound(body["code"]), Bound(body["incident"]), Bound(body["police_grid"]),
             Bound(body["neighborhood_number"]), Bound(body["block"]))
  }

  /** The values of a row in column order. */
  function RowValues(row: Incident): (vs: seq<Param>)
    ensures |vs| == 7 && vs[0] == row.caseNumber && vs[1] == row.dateTime
  {
    [row.caseNumber, row.dateTime, row.code, row.incident, row.policeGrid, row.neighborhoodNumber, row.block]
  }

  function InsertStatement(body: Body): Statement
    requires Complete(body)
  {
    Statement(InsertHead + Marks(7), RowValues(NewRow(body)))
  }

  /** The existence check binds `parseInt` of the case number, not the value itself. */
  function InsertCheck(body: Body): Statement
    requires "case_number" in body
  {
    Statement(InsertCheckSql, [ParseIntParam(Spelled(body["case_number"]))])
  }

  /** Adding a row under its case number; the storage refuses a row whose
      case number is no integer or is already taken. */
  function Write(store: Store, row: Incident): (r: Option<Store>)
    ensures r.Some? <==> KeyOf(row.caseNumber).Some? && KeyOf(row.caseNumber).value !in store
    ensures r.Some? ==> r.value == store[KeyOf(row.caseNumber).value := row]
  {
    match KeyOf(row.caseNumber)
    case Some(k) => if k in store then None else Some(store[k := row])
    case None => None
  }

  /** The `PUT /new-incident` handler. */
  function NewIncident(store: Store, body: Body): (r: Response)
    ensures r.outcome.MissingColumn? <==> !Complete(body)
    ensures r.outcome.MissingColumn? ==> r.calls == []
    ensures !r.outcome.Ok? ==> r.store == store
    ensures Complete(body) ==> |r.calls| >= 1 && r.calls[0] == Select(InsertCheck(body))
  {
    if !Complete(body) then
      Response(MissingColumn, [], store)
    else
      var check := InsertCheck(body);
      if |Lookup(store, check.params[0])| != 0 then
        Response(DuplicateCase, [Select(check)], store)
      else
        var run := InsertStatement(body);
        match Write(store, NewRow(body))
        case Some(after) => Response(Ok, [Select(check), Run(run)], after)
        case None => Response(StorageFailure, [Select(check), Run(run)], store)
  }

  /** The insert binds one value per placeholder, seven in all: the body's
      values in column order, with the date and time joined. */
  lemma InsertInStep(body: Body)
    requires Complete(body)
    ensures InStep(InsertStatement(body)) && |InsertStatement(body).params| == 7
    ensures InsertStatement(body).params
            == [Bound(body["case_number"]), PStr(Spelled(body["date"]) + "T" + Spelled(body["time"])),
                Bound(body["code"]), Bound(body["incident"]), Bound(body["police_grid"]),
                Bound(body["neighborhood_number"]), Bound(body["block"])]
    ensures InStep(InsertCheck(body))
  {
    assert Placeholders(InsertHead + Marks(7)) == 7 by {
      InsertHeadPlain();
      PlaceholdersAppend(InsertHead, Marks(7));
    }
    CaseNumberTexts();
  }

  /** Whenever the storage accepts the case number, the existence check
      looks up the same integer. */
  lemma {:induction false} CheckAgreesWithWrite(v: Json, k: int)
    requires KeyOf(Bound(v)) == Some(k)
    ensures ParseIntParam(Spelled(v)) == PInt(k)
    ensures KeyOf(ParseIntParam(Spelled(v))) == Some(k)
  {
    match v
    case JNum(n) =>
      assert DecimalText(n) + "" == DecimalText(n);
      ParseIntOfDecimal(n, "");
    case JStr(s) =>
      assert s == DecimalText(k);
      assert DecimalText(k) + "" == DecimalText(k);
      ParseIntOfDecimal(k, "");
  }

  /** The insert succeeds exactly when every column is present, the case
      number is an integer and no row has it yet; it then adds exactly the
      new row, under its case number, and asks the storage for the lookup and
      the insert. */
  lemma NewIncidentSucceeds(store: Store, body: Body)
    ensures NewIncident(store, body).outcome.Ok? <==>
            Complete(body) && KeyOf(Bound(body["case_number"])).Some?
            && KeyOf(Bound(body["case_number"])).value !in store
    ensures NewIncident(store, body).outcome.Ok? ==>
            var k := KeyOf(Bound(body["case_number"])).value;
            && NewIncident(store, body).store == store[k := NewRow(body)]
            && NewIncident(store, body).calls == [Select(InsertCheck(body)), Run(InsertStatement(body))]
  {
    if Complete(body) {
      var key := KeyOf(Bound(body["case_number"]));
      if key.Some? {
        CheckAgreesWithWrite(body["case_number"], key.value);
      }
    }
  }

  /** A complete body is refused as a duplicate exactly when the check
      finds its case number in the table; it is then refused after the lookup
      alone and the table is left as it was, and otherwise the insert is
      issued after the lookup. */
  lemma NewIncidentDuplicate(store: Store, body: Body)
    requires Complete(body)
    ensures NewIncident(store, body).outcome == DuplicateCase <==> |Lookup(store, InsertCheck(body).params[0])| != 0
    ensures |Lookup(store, InsertCheck(body).params[0])| != 0 ==>
              NewIncident(store, body).calls == [Select(InsertCheck(body))] && NewIncident(store, body).store == store
    ensures |Lookup(store, InsertCheck(body).params[0])| == 0 ==>
              NewIncident(store, body).calls == [Select(InsertCheck(body)), Run(InsertStatement(body))]
  {
  }

  /** A body missing a column reaches no storage call. */
  lemma NewIncidentMissingColumn(store: Store, body: Body)
    requires !Complete(body)
    ensures NewIncident(store, body) == Response(MissingColumn, [], store)
  {
  }

  /** Sending the same insert twice: the second is refused as a duplicate. */
  lemma NewIncidentTwice(store: Store, body: Body)
    requires NewIncident(store, body).outcome.Ok?
    ensures NewIncident(NewIncident(store, body).store, body).outcome == DuplicateCase
    ensures NewIncident(NewIncident(store, body).store, body).store == NewIncident(store, body).store
  {
    NewIncidentSucceeds(store, body);
    var k := KeyOf(Bound(body["case_number"])).value;
    CheckAgreesWithWrite(body["case_number"], k);
  }

  // ---------------------------------------------------------------------
  // DELETE /remove-incident
  // ---------------------------------------------------------------------

  /** The `DELETE /remove-incident` handler. The case number is bound
      unchanged to both the check and the delete. Without a case number the
      check text stays undefined, the storage call fails and nothing is
      looked up. */
  function RemoveIncident(store: Store, body: Body): (r: Response)
    ensures "case_number" !in body ==> r == Response(StorageFailure, [], store)
    ensures !r.outcome.Ok? ==> r.store == store
  {
    if "case_number" !in body then
      Response(StorageFailure, [], store)
    else
      var p := Bound(body["case_number"]);
      var check := Statement(DeleteCheckSql, [p]);
      if |Lookup(store, p)| == 0 then
        Response(NotFound, [Select(check)], store)
      else
        Response(Ok, [Select(check), Run(Statement(DeleteSql, [p]))], store - {KeyOf(p).value})
  }

  /** Removal succeeds exactly when the case number selects a row; it then
      removes exactly that row, leaves every other row as it was, and has
      issued the lookup and the delete, each filtered by the case number. */
  lemma RemoveIncidentMeaning(store: Store, body: Body)
    requires "case_number" in body
    ensures var key := KeyOf(Bound(body["case_number"]));
            RemoveIncident(store, body).outcome.Ok? <==> key.Some? && key.value in store
    ensures var key := KeyOf(Bound(body["case_number"]));
            RemoveIncident(store, body).outcome.Ok? ==>
            && key.value !in RemoveIncident(store, body).store
            && RemoveIncident(store, body).store.Keys == store.Keys - {key.value}
            && (forall k :: k in RemoveIncident(store, body).store ==> RemoveIncident(store, body).store[k] == store[k])
    ensures RemoveIncident(store, body).outcome.Ok? ==>
            RemoveIncident(store, body).calls == [Select(Statement(DeleteCheckSql, [Bound(body["case_number"])])),
                                                  Run(Statement(DeleteSql, [Bound(body["case_number"])]))]
    ensures !RemoveIncident(store, body).outcome.Ok? ==>
            && RemoveIncident(store, body).outcome == NotFound
            && RemoveIncident(store, body).calls == [Select(Statement(DeleteCheckSql, [Bound(body["case_number"])]))]
  {
  }

  /** Both statements of a removal bind one value per placeholder. */
  lemma RemoveInStep(store: Store, body: Body)
    requires "case_number" in body
    ensures forall i :: 0 <= i < |RemoveIncident(store, body).calls| ==> InStep(RemoveIncident(store, body).calls[i].st)
  {
    CaseNumberTexts();
  }

  /** Removing the same case number twice: the second finds nothing. */
  lemma RemoveIncidentTwice(store: Store, body: Body)
    requires RemoveIncident(store, body).outcome.Ok?
    ensures RemoveIncident(RemoveIncident(store, body).store, body).outcome == NotFound
  {
  }

  /** A successful insert followed by a removal of the same case number
      restores the table. */
  lemma InsertThenRemove(store: Store, body: Body)
    requires NewIncident(store, body).outcome.Ok?
    ensures RemoveIncident(NewIncident(store, body).store, body).outcome.Ok?
    ensures RemoveIncident(NewIncident(store, body).store, body).store == store
  {
    NewIncidentSucceeds(store, body);
  }
}

=== FILE: sql.dfy ===
/** Parameterised SQL as the handlers produce it, and a structured reference
    rendering of filter clauses built from comparisons. Every comparison
    renders as `column op ?` and contributes exactly its own value, so the
    placeholders of a rendered clause and its bound values stay in step. */
module Sql {
  import opened Wrappers
  import opened JsText

  /** A value handed to the storage executor alongside a query. `PNaN` is the
      number `NaN` that `parseInt` returns on text without digits, `PUndef` is
      JavaScript's `undefined`. */
  datatype Param = PInt(n: int) | PStr(s: string) | PNaN | PUndef

  /** `parseInt(s)` as a bound value: `NaN` is passed on, not rejected. */
  function ParseIntParam(s: string): (p: Param)
    ensures p.PInt? || p.PNaN?
    ensures p.PNaN? <==> ParseInt(s).None?
    ensures ParseInt(s).Some? ==> p == PInt(ParseInt(s).value)
  {
    match ParseInt(s)
    case Some(n) => PInt(n)
    case None => PNaN
  }

  /** A query text with positional `?` placeholders and its bound values. */
  datatype Statement = Statement(sql: string, params: seq<Param>)

  function Text(s: string): Statement
  {
    Statement(s, [])
  }

  function Append(a: Statement, b: Statement): Statement
  {
    Statement(a.sql + b.sql, a.params + b.params)
  }

  /** The number of `?` placeholders in a query text. */
  function Placeholders(s: string): nat
    decreases |s|
  {
    if |s| == 0 then 0 else (if s[0] == '?' then 1 else 0) + Placeholders(s[1..])
  }

  /** A text without placeholders.

      The fixed texts of the handlers' queries are written throughout as
      concatenations of short literals, each with a one-line lemma stating
      that it is `Plain`. The verifier decides `'?' !in s` of a literal by
      looking at it character by character, which is cheap for a short
      literal and costly for a long one; from the pieces, `Plain` of the whole
      follows by sequence concatenation alone, and `PlainHasNone` turns it
      into a placeholder count of zero. */
  predicate Plain(s: string)
  {
    '?' !in s
  }

  lemma {:induction false} PlainHasNone(s: string)
    requires Plain(s)
    ensures Placeholders(s) == 0
    decreases |s|
  {
    if |s| > 0 {
      assert s[0] in s;
      assert forall c :: c in s[1..] ==> c in s;
      PlainHasNone(s[1..]);
    }
  }

  lemma {:induction false} PlaceholdersAppend(a: string, b: string)
    ensures Placeholders(a + b) == Placeholders(a) + Placeholders(b)
    decreases |a|
  {
    if |a| == 0 {
      assert a + b == b;
    } else {
      assert (a + b)[0] == a[0];
      assert (a + b)[1..] == a[1..] + b;
      PlaceholdersAppend(a[1..], b);
    }
  }

  /** The fixed connectives of the lookups carry no placeholder. */
  lemma ConnectivesPlain()
    ensures Plain(" WHERE ") && Plain(" AND ") && Plain(" OR ") && Plain("(") && Plain(")")
  {
  }

  lemma OnePlaceholder()
    ensures Placeholders(" ?") == 1
  {
    var q := " ?";
    assert q[0] == ' ' && q[1..] == "?";
    assert "?"[0] == '?' && "?"[1..] == "";
    assert Placeholders("?") == 1 + Placeholders("");
    assert Placeholders(q) == Placeholders("?");
  }

  /** A statement is in step when it has exactly one bound value per placeholder. */
  predicate InStep(st: Statement)
  {
    Placeholders(st.sql) == |st.params|
  }

  lemma TextInStep(s: string)
    requires Plain(s)
    ensures InStep(Text(s))
  {
    PlainHasNone(s);
  }

  /** A statement between two fixed texts. */
  lemma TextThen(head: string, st: Statement)
    ensures Append(Text(head), st) == Statement(head + st.sql, st.params)
  {
    assert [] + st.params == st.params;
  }

  lemma Framed(head: string, st: Statement, tail: string)
    ensures Append(Append(Text(head), st), Text(tail)) == Statement(head + st.sql + tail, st.params)
  {
    assert [] + st.params + [] == st.params;
  }

  lemma AppendInStep(a: Statement, b: Statement)
    requires InStep(a) && InStep(b)
    ensures InStep(Append(a, b))
  {
    PlaceholdersAppend(a.sql, b.sql);
  }

  /** The columns the lookups filter on. */
  datatype Column = Code | NeighborhoodNumber | PoliceGrid | IncidentDate

  function ColumnText(c: Column): string
  {
    match c
    case Code => "code"
    case NeighborhoodNumber => "neighborhood_number"
    case PoliceGrid => "police_grid"
    case IncidentDate => "date(date_time)"
  }

  lemma ColumnPlain(c: Column)
    ensures Plain(ColumnText(c))
  {
    match c
    case Code =>
    case NeighborhoodNumber =>
    case PoliceGrid =>
    case IncidentDate =>
  }

  datatype Op = Eq | AtLeast | AtMost

  function OpText(o: Op): string
  {
    match o
    case Eq => "="
    case AtLeast => ">="
    case AtMost => "<="
  }

  lemma OpPlain(o: Op)
    ensures Plain(OpText(o))
  {
  }

  /** One comparison of a column with a bound value. */
  datatype Cmp = Cmp(column: Column, op: Op, value: Param)

  /** The bound values of a run of comparisons, in reading order. */
  function Values(cs: seq<Cmp>): (vs: seq<Param>)
    ensures |vs| == |cs|
    ensures forall i :: 0 <= i < |cs| ==> vs[i] == cs[i].value
  {
    seq(|cs|, i requires 0 <= i < |cs| => cs[i].value)
  }

  /** `column op ?` bound to the comparison's value. */
  function RenderCmp(c: Cmp): (st: Statement)
    ensures InStep(st)
    ensures st.params == Values([c])
  {
    var head := ColumnText(c.column) + " " + OpText(c.op);
    ColumnPlain(c.column);
    OpPlain(c.op);
    assert Plain(head);
    PlainHasNone(head);
    PlaceholdersAppend(head, " ?");
    OnePlaceholder();
    Statement(head + " ?", [c.value])
  }

  /** The renderings of `xs` separated by `sep`. */
  function JoinAll<T>(xs: seq<T>, render: T -> Statement, sep: string): Statement
    decreases |xs|
  {
    if |xs| == 0 then Text("")
    else if |xs| == 1 then render(xs[0])
    else Append(Append(JoinAll(xs[..|xs| - 1], render, sep), Text(sep)), render(xs[|xs| - 1]))
  }

  /** The text of a join of two or more: the join of all but the last, the
      separator, then the last rendering. */
  lemma JoinAllLast<T>(xs: seq<T>, render: T -> Statement, sep: string)
    requires |xs| >= 2
    ensures JoinAll(xs, render, sep).sql == JoinAll(xs[..|xs| - 1], render, sep).sql + sep + render(xs[|xs| - 1]).sql
  {
  }

  /** The comparisons of each element of `xs`, concatenated in order. */
  function FlatMap<T>(xs: seq<T>, cmpsOf: T -> seq<Cmp>): seq<Cmp>
    decreases |xs|
  {
    if |xs| == 0 then [] else FlatMap(xs[..|xs| - 1], cmpsOf) + cmpsOf(xs[|xs| - 1])
  }

  /** Joining in-step renderings with a placeholder-free separator is in
      step, and the bound values are those of all comparisons, left to right. */
  lemma {:induction false} JoinAllInOrder<T>(xs: seq<T>, render: T -> Statement, sep: string, cmpsOf: T -> seq<Cmp>)
    requires Plain(sep)
    requires forall x :: x in xs ==> InStep(render(x)) && render(x).params == Values(cmpsOf(x))
    ensures InStep(JoinAll(xs, render, sep))
    ensures JoinAll(xs, render, sep).params == Values(FlatMap(xs, cmpsOf))
    decreases |xs|
  {
    if |xs| == 1 {
      assert xs[..0] == [];
      assert FlatMap(xs, cmpsOf) == cmpsOf(xs[0]);
    } else if |xs| > 1 {
      var init := xs[..|xs| - 1];
      var last := xs[|xs| - 1];
      assert forall x :: x in init ==> x in xs;
      JoinAllInOrder(init, render, sep, cmpsOf);
      assert last in xs;
      PlainHasNone(sep);
      var front := JoinAll(init, render, sep).sql;
      PlaceholdersAppend(front, sep);
      PlaceholdersAppend(front + sep, render(last).sql);
      assert Values(FlatMap(init, cmpsOf) + cmpsOf(last)) == Values(FlatMap(init, cmpsOf)) + Values(cmpsOf(last));
    }
  }

  function Single(c: Cmp): seq<Cmp>
  {
    [c]
  }

  lemma {:induction false} FlatMapSingle(cs: seq<Cmp>)
    ensures FlatMap(cs, Single) == cs
    decreases |cs|
  {
    if |cs| > 0 {
      FlatMapSingle(cs[..|cs| - 1]);
      assert cs == cs[..|cs| - 1] + [cs[|cs| - 1]];
    }
  }

  /** Comparisons joined by `sep` (` OR ` in the exact lists, ` AND ` inside
      a closed code range). */
  function Chain(cs: seq<Cmp>, sep: string): (st: Statement)
    requires Plain(sep)
    ensures InStep(st)
    ensures st.params == Values(cs)
  {
    JoinAllInOrder(cs, RenderCmp, sep, Single);
    FlatMapSingle(cs);
    JoinAll(cs, RenderCmp, sep)
  }

  /** Two comparisons joined by `sep`. */
  lemma ChainPair(c0: Cmp, c1: Cmp, sep: string)
    requires Plain(sep)
    ensures Chain([c0, c1], sep) == Statement(RenderCmp(c0).sql + sep + RenderCmp(c1).sql, [c0.value, c1.value])
  {
    var cs := [c0, c1];
    assert cs[..1] == [c0];
    assert JoinAll(cs, RenderCmp, sep) == Append(Append(RenderCmp(c0), Text(sep)), RenderCmp(c1));
  }

  /** One alternative of a code lookup: its comparisons joined by ` AND `. */
  function Conjunct(term: seq<Cmp>): Statement
  {
    ConnectivesPlain();
    Chain(term, " AND ")
  }

  function Itself(term: seq<Cmp>): seq<Cmp>
  {
    term
  }

  /** Alternatives joined by ` OR `, as in the WHERE clause of `/codes`. */
  function Disjunction(terms: seq<seq<Cmp>>): (st: Statement)
    ensures InStep(st)
    ensures st.params == Values(FlatMap(terms, Itself))
  {
    ConnectivesPlain();
    JoinAllInOrder(terms, Conjunct, " OR ", Itself);
    JoinAll(terms, Conjunct, " OR ")
  }

  /** One AND-ed clause of an incident lookup: a single comparison, or a
      parenthesised OR-list of comparisons. */
  datatype Group = Bare(cmp: Cmp) | AnyOf(alts: seq<Cmp>)

  function GroupCmps(g: Group): seq<Cmp>
  {
    match g
    case Bare(c) => [c]
    case AnyOf(alts) => alts
  }

  function RenderGroup(g: Group): (st: Statement)
    ensures InStep(st)
    ensures st.params == Values(GroupCmps(g))
  {
    match g
    case Bare(c) => RenderCmp(c)
    case AnyOf(alts) =>
      ConnectivesPlain();
      var inner := Chain(alts, " OR ");
      PlainHasNone("(");
      PlainHasNone(")");
      PlaceholdersAppend("(", inner.sql);
      PlaceholdersAppend("(" + inner.sql, ")");
      Append(Append(Text("("), inner), Text(")"))
  }

  /** A parenthesised group reads `(`, its alternatives joined by ` OR `,
      then `)`. */
  lemma AnyOfRender(alts: seq<Cmp>)
    ensures var inner := Chain(alts, " OR ");
            RenderGroup(AnyOf(alts)) == Statement("(" + inner.sql + ")", inner.params)
  {
    var inner := Chain(alts, " OR ");
    assert RenderGroup(AnyOf(alts)) == Append(Append(Text("("), inner), Text(")"));
    assert Append(Append(Text("("), inner), Text(")")) == Statement("(" + inner.sql + ")", inner.params) by {
      Framed("(", inner, ")");
    }
  }

  /** The connective before the `n`-th group of a WHERE clause. */
  function Keyword(n: nat): string
  {
    if n == 0 then " WHERE " else " AND "
  }

  /** No clause without groups; otherwise ` WHERE ` and the groups joined by
      ` AND `. */
  function Where(gs: seq<Group>): Statement
  {
    if |gs| == 0 then Text("") else Append(Text(" WHERE "), JoinAll(gs, RenderGroup, " AND "))
  }

  /** A WHERE clause is in step, binds the values of all its comparisons in
      reading order, and is empty exactly when there is no group. */
  lemma WhereInOrder(gs: seq<Group>)
    ensures InStep(Where(gs))
    ensures Where(gs).params == Values(FlatMap(gs, GroupCmps))
    ensures |gs| == 0 <==> Where(gs).sql == ""
  {
    if |gs| == 0 {
      assert Where(gs) == Text("");
      assert FlatMap(gs, GroupCmps) == [];
    } else {
      GroupsInOrder(gs);
      var body := JoinAll(gs, RenderGroup, " AND ");
      assert Where(gs) == Append(Text(" WHERE "), body);
      WhereKeyword(body);
    }
  }

  lemma GroupsInOrder(gs: seq<Group>)
    ensures InStep(JoinAll(gs, RenderGroup, " AND "))
    ensures JoinAll(gs, RenderGroup, " AND ").params == Values(FlatMap(gs, GroupCmps))
  {
    ConnectivesPlain();
    JoinAllInOrder(gs, RenderGroup, " AND ", GroupCmps);
  }

  lemma WhereKeyword(body: Statement)
    ensures Placeholders(" WHERE " + body.sql) == Placeholders(body.sql)
    ensures " WHERE " + body.sql != ""
  {
    ConnectivesPlain();
    PlainHasNone(" WHERE ");
    PlaceholdersAppend(" WHERE ", body.sql);
  }

  /** Adding a group extends the clause by ` WHERE ` for the first group and
      ` AND ` for every later one. */
  lemma WhereSnoc(gs: seq<Group>, g: Group)
    ensures Where(gs + [g]) == Append(Append(Where(gs), Text(Keyword(|gs|))), RenderGroup(g))
  {
    var all := gs + [g];
    var r := RenderGroup(g);
    assert all[..|gs|] == gs;
    assert all[|gs|] == g;
    if |gs| == 0 {
      assert JoinAll(all, RenderGroup, " AND ") == r;
      AppendUnit(Text(" WHERE "));
    } else {
      var front := JoinAll(gs, RenderGroup, " AND ");
      assert JoinAll(all, RenderGroup, " AND ") == Append(Append(front, Text(" AND ")), r);
      AppendAssoc(Text(" WHERE "), Append(front, Text(" AND ")), r);
      AppendAssoc(Text(" WHERE "), front, Text(" AND "));
    }
  }

  lemma AppendAssoc(a: Statement, b: Statement, c: Statement)
    ensures Append(Append(a, b), c) == Append(a, Append(b, c))
  {
    assert (a.sql + b.sql) + c.sql == a.sql + (b.sql + c.sql);
    assert (a.params + b.params) + c.params == a.params + (b.params + c.params);
  }

  /** Extending `p + w` by a connective and a rendered piece. */
  lemma Extend(p: Statement, w: Statement, k: string, r: Statement)
    ensures Append(p, Append(Append(w, Text(k)), r))
         == Statement(Append(p, w).sql + k + r.sql, Append(p, w).params + r.params)
  {
    assert p.sql + (w.sql + k + r.sql) == p.sql + w.sql + k + r.sql;
    assert p.params + (w.params + [] + r.params) == p.params + w.params + r.params;
  }

  lemma AppendUnit(a: Statement)
    ensures Append(Text(""), a) == a
  {
    assert "" + a.sql == a.sql;
    assert [] + a.params == a.params;
  }
}

=== FILE: wrappers.dfy ===
/** Failure-compatible wrappers shared by the whole model. */
module Wrappers {

  /** A value that may be missing; `None` also stands for JavaScript's `NaN`
      where a numeric parse fails. */
  datatype Option<+T> = None | Some(value: T) {

    predicate IsFailure() {
      None?
    }

    function PropagateFailure<U>(): Option<U>
      requires None?
    {
      None
    }

    function Extract(): T
      requires Some?
    {
      value
    }
  }

  /** Either a computed value or the error that stopped the computation. */
  datatype Result<+R, +E> = Success(value: R) | Failure(error: E) {

    predicate IsFailure() {
      Failure?
    }

    function PropagateFailure<U>(): Result<U, E>
      requires Failure?
    {
      Failure(error)
    }

    function Extract(): R
      requires Success?
    {
      value
    }
  }
}
